=== FILE: README.md ===
# MagicSwitcher — a Dafny model of the shortcut recogniser

MagicSwitcher is a Windows tray program that switches the keyboard layout
when the user presses and releases one configured key. Low-level keyboard and
mouse hooks report every input event. An `InputHook` object keeps the newest
ten events. It drops keyboard auto-repeats and scans its registered
`InputSequence`s in registration order. The first sequence whose events end
the history fires its name, and `App.ShortcutHandler` turns that name into a
layout change. `Program.Main` decides between three things:

- carrying out a command-line switch: help, or install or uninstall the Windows service;
- starting the tray application;
- running as a service.

This project models that core as pure functions over immutable values:

| file | module | models |
|---|---|---|
| `wrappers.dfy` | `Wrappers` | `Option` and `Result` |
| `text.dfy` | `Text` | ASCII upper-casing and case-insensitive equality |
| `input_events.dfy` | `InputEvents` | `InputEventType`, `InputEvent` with its `Equals`, `InputSequence` |
| `input_hook.dfy` | `InputHook` | the recogniser: history, repeat filter, matcher, the five handlers |
| `hook_lifecycle.dfy` | `HookLifecycle` | `Hook`/`UnHook` of the two hook singletons |
| `keyboard_hook.dfy` | `KeyboardHook` | `GlobalKeyboardHook.KeyboardHookProc` |
| `mouse_hook.dfy` | `MouseHook` | `GlobalMouseHook.MouseHookProc` and its message switch |
| `hook_wiring.dfy` | `HookWiring` | the subscriptions of the `InputHook` constructor: one OS notification end to end |
| `app.dfy` | `App` | `InitKeyboardHook`, `AddShortCut`, `ShortcutHandler` |
| `program.dfy` | `Program` | `ParseArgs`, `Main`, the four service operations on an abstract service state |

A few choices shape the model:

- Mutable objects become values.
- Every operation returns the new state.
- An event raised to subscribers becomes a returned value: a fired sequence
  name, a raised notice, or a list of effects.
- The operating system becomes parameters:
  - the handle `SetWindowsHookEx` returns;
  - whether `UnhookWindowsHookEx` succeeds;
  - what `CallNextHookEx` answers;
  - whether the process runs interactively.
- `Enum.TryParse<Keys>` is a parser function passed in as a parameter.

Four behaviours of the code that the model keeps as written:

- **Matching compares event type and key only.** `IsTriggered` compares `EventType` and `Key`. It does not use the kind-aware `Equals`, which the repeat filter does use. A mouse event always keeps `Key = Keys.None`, so a mouse pattern matches any event of the same type, whatever the button or wheel delta (`InputEvents.MousePatternsMatchOnTypeAlone`). The shipped configuration registers only keyboard patterns, so this does not show in use.
- **Hooks before configuration.** `InitKeyboardHook` creates the `InputHook` first. Its constructor subscribes to both singletons, which installs both OS hooks. Only then are the shortcut settings parsed, and a bad setting throws after the hooks are live.
- **No undo on a failed install.** A failed `Hook` leaves the callback recorded (`HookLifecycle.FailedHookStaysMarked`). A later `Hook` would trip the assertion.
- **No fault isolation.** Nothing on the hook path catches exceptions.

## Model

| member | source | states |
|---|---|---|
| Text.ToUpperChar | Program.cs:41 | lower-case ASCII letters map to their upper-case letter; every other character is unchanged |
| Text.ToUpper | Program.cs:41 | upper-casing keeps the length and maps every character independently |
| Text.EqualsIgnoreCase | App.cs:106 | two strings are equal ignoring case exactly when they have the same length and agree character by character after upper-casing each character |
| InputEvents.Relevant | InputHook.cs:47-73 | each event kind has exactly one meaningful field: key for key events, button for button events, delta for the wheel |
| InputEvents.Equals | InputHook.cs:47-73 | `Equals` holds exactly when the event types agree and so does the payload, the one field the type makes relevant |
| InputEvents.EqualsIsEquivalence | InputHook.cs:47-73 | `Equals` is reflexive, symmetric and transitive |
| InputEvents.EqualsIgnoresIrrelevantFields | InputHook.cs:55-68 | changing a field the event's kind does not use never changes the outcome of `Equals` |
| InputEvents.Agrees | InputHook.cs:180-181 | on a key event the matcher's type-and-key comparison is exactly `Equals`; between two events whose keys are both `Keys.None` it compares the event type alone |
| InputEvents.MousePatternsMatchOnTypeAlone | InputHook.cs:180-181 | mouse events of the same type agree for the matcher whatever their button or delta, although `Equals` tells them apart |
| InputEvents.NewSequence | InputHook.cs:93-96 | a new sequence carries the given name and has no events |
| InputEvents.Get | InputHook.cs:105-107 | the indexer yields the event at a valid index and an error outside `0 .. Count-1` |
| InputEvents.Set | InputHook.cs:105-108 | setting a valid index replaces that event only, keeping name and count; a bad index is an error |
| InputEvents.Count | InputHook.cs:99-102 | the count of a sequence is the number of its events; the indexer (`Get`, `Set`) and the matcher are bounded by it |
| InputEvents.Add | InputHook.cs:112-115 | `Add` grows the count by one, puts the event last and keeps the earlier events |
| InputEvents.PressRelease | App.cs:119-121 | the shortcut sequence is a new named sequence with the key-down and then the key-up event added |
| InputEvents.Trigger | InputHook.cs:127-130 | firing a sequence raises its own name, whatever its events |
| InputHook.AddSequence | InputHook.cs:149-152 | registering appends the sequence after the existing ones and leaves the history alone |
| InputHook.IsTriggered | InputHook.cs:170-190 | the backward walk succeeds exactly when the pattern fits in the history and agrees on type and key with its newest entries; a history shorter than the pattern never triggers |
| InputHook.FirstTriggered | InputHook.cs:154-168 | the scan finds the first registered sequence the history triggers, or reports that none is triggered |
| InputHook.FirstRegisteredWins | InputHook.cs:158-166 | of two sequences with the same events, the later-registered one never fires |
| InputHook.NewestKeyIndex | InputHook.cs:222-229 | the backward search finds the newest key event, with only mouse events after it, or reports there is none |
| InputHook.IsRepeat | InputHook.cs:217-233 | a repeat is a key event that `Equals` the newest key event in the history, mouse events in between notwithstanding; mouse events are never repeats |
| InputHook.NewestKeyUnique | InputHook.cs:222-229 | the newest key event is unique, and it is the one the search finds |
| InputHook.Push | InputHook.cs:207-212 | the event becomes the newest entry; the history grows up to ten and from then on exactly the oldest entry is dropped |
| InputHook.AddInputEvToHistory | InputHook.cs:202-215 | a repeat changes nothing and fires nothing; any other event is pushed; what fires is the first matching sequence's name; a match always fires; the bound of ten is kept; the sequences are never changed |
| InputHook.OnKeyDown | InputHook.cs:235-238 | a key press is recorded unless it repeats the newest key event |
| InputHook.OnKeyUp | InputHook.cs:240-243 | a key release is recorded unless it repeats the newest key event |
| InputHook.OnMouseDown | InputHook.cs:245-248 | a button press is always recorded |
| InputHook.OnMouseUp | InputHook.cs:250-253 | a button release is always recorded |
| InputHook.OnMouseWheel | InputHook.cs:255-258 | a wheel turn is always recorded, with its delta |
| InputHook.RunInvariant | InputHook.cs:202-215 | over any stream of events the sequences are unchanged, the history stays within ten and at most one name fires per event |
| InputHook.Repeat | InputHook.cs:217-233 | an auto-repeat burst is the same event `n` times |
| InputHook.RepeatsAreInert | InputHook.cs:205 | once an event is a repeat, any number of further copies change nothing and fire nothing |
| InputHook.RepeatedKeyCountsOnce | InputHook.cs:217-233 | a key event delivered N >= 1 times in a row acts exactly like one delivery and adds at most one history entry |
| InputHook.RepeatBurstRun | InputHook.cs:205 | a burst of one key event, N >= 1 times, ends in the state the first copy produces and fires only what the first copy fires |
| InputHook.KeyRepeatsItself | InputHook.cs:217-233 | right after a key event is processed, the same event is a repeat, and the history has grown by at most one |
| InputHook.LastN | InputHook.cs:136-138 | the window holds the newest `n` elements, or all of them when there are fewer |
| InputHook.AcceptedStreamHistory | InputHook.cs:202-215 | when no event of a stream is a repeat, the history afterwards is the newest ten of the old history followed by the stream |
| InputHook.NotRepeatAfterOtherKey | InputHook.cs:217-233 | right after a key event, an event not `Equals` to it is never a repeat |
| InputHook.HeldKeyFiresOnce | InputHook.cs:202-233 | press, auto-repeat, release on a registered press-and-release shortcut: it fires once and the history holds only the press and the release |
| InputHook.TwoShortcutsFireInOrder | InputHook.cs:154-215 | two press-and-release shortcuts on different keys, used one after the other, fire once each, in order, and never on each other's key |
| HookLifecycle.Hook | GlobalKeyboardHook.cs:39-49 | installing requires that no hook is recorded; afterwards the callback is recorded with the OS handle, and the attempt fails exactly when the handle is zero |
| HookLifecycle.UnHook | GlobalMouseHook.cs:56-65 | unhooking with no hook recorded does nothing; otherwise the hook is released exactly when the OS call succeeds; the handle field is never cleared |
| HookLifecycle.HookUnHookRoundTrip | GlobalKeyboardHook.cs:39-62 | a successful hook followed by a successful unhook allows hooking again, and a second unhook does nothing |
| HookLifecycle.FailedHookStaysMarked | GlobalMouseHook.cs:42-65 | after a failed hook the callback stays recorded until an unhook succeeds |
| KeyboardHook.KeyboardHookProc | GlobalKeyboardHook.cs:71-92 | negative codes raise nothing; plain and system key-down messages raise KeyDown with the virtual-key code and key-up messages raise KeyUp, each only if subscribed; nothing else raises; the notification is swallowed with 1 exactly when a raised event was handled, else it is passed on unchanged and the next hook's answer returned |
| KeyboardHook.SystemMessagesFold | GlobalKeyboardHook.cs:77-83 | `WM_SYSKEYDOWN` and `WM_SYSKEYUP` raise the same event and return the same value as `WM_KEYDOWN` and `WM_KEYUP` |
| KeyboardHook.PassThrough | GlobalKeyboardHook.cs:88-91 | with nothing handled, every notification reaches the next hook unchanged and its answer is returned |
| MouseHook.HighWord | GlobalMouseHook.cs:145 | the arithmetic shift `mouseData >> 16` is the sign-extended high word: a signed 16-bit value `d` with `d * 65536 <= mouseData < (d+1) * 65536` |
| MouseHook.Classify | GlobalMouseHook.cs:82-148 | client and non-client messages classify alike; down, up and double-click messages, moves and both wheel messages each form exactly their sets; the button follows the L/R/M of the message; only wheel messages carry a delta, the high word of `mouseData` |
| MouseHook.MouseHookProc | GlobalMouseHook.cs:74-157 | the notification is always passed on unchanged and the next hook's answer returned; an event is raised exactly for a non-negative code, a known message and a subscribed kind, carrying kind, button, delta and cursor position |
| MouseHook.WheelDeltaSign | GlobalMouseHook.cs:143-147 | whenever the low word of `mouseData` is zero, a wheel message raises exactly its signed high word, so a notch away from the user gives +120 and one towards the user -120 |
| HookWiring.DeliverKeyboard | InputHook.cs:142-143 | a keyboard notification is never swallowed; for a non-negative code, key-down and key-up messages feed the recogniser the matching key event, keyed by the raw virtual-key code, and everything else is ignored |
| HookWiring.DeliverMouse | InputHook.cs:144-146 | a mouse notification is never swallowed and never changes the sequences; left-button presses and wheel turns are recorded, the wheel with the high-word delta |
| HookWiring.MouseNoiseIsIgnored | InputHook.cs:144-146 | double-clicks and moves have no subscriber and never reach the history |
| HookWiring.MouseButtonsAlwaysRecorded | GlobalMouseHook.cs:150-154 | for every non-negative code, every button press, release and wheel turn reaches the history, as the matching event |
| App.IsDisabled | App.cs:106 | a setting is disabled exactly when it is empty or is "Off" in any letter case |
| App.KeyName | App.cs:108-115 | "LAlt" and "RAlt" in any case become "LMenu" and "RMenu"; every other name is kept |
| App.AddShortCut | App.cs:104-132 | a setting that is empty or "Off" in any case registers nothing; a known key name registers exactly one sequence, named after the action, holding that key's press and then its release; an unknown name is an error naming it and registers nothing |
| App.FirstRejected | App.cs:53-58 | the position of the first setting that makes registration throw; all settings before it are accepted |
| App.RegisterAll | App.cs:53-58 | settings are registered in order until the first error; the sequences of all settings before it are added and the error names the rejected key |
| App.RegisterAllStep | App.cs:53-58 | registering a list is registering its first setting and then the rest |
| App.InitKeyboardHook | App.cs:51-58 | a fresh recogniser gets at most one sequence per action, each named after an action, in registration order, and the error is absent exactly when none of the five settings is rejected |
| App.InitFacts | App.cs:51-58 | at most five sequences, each named English, Russian, Ukrainian, Polish or Next, and no error exactly when no setting is rejected |
| App.RegisteredFacts | App.cs:53-58 | registration from a fresh hook adds at most one sequence per setting, each named after an action, and reports no error exactly when no setting is rejected |
| App.PlannedNames | App.cs:117-123 | the settings add at most one sequence each, named after their actions |
| App.PlannedAllValid | App.cs:117-123 | when every setting names a key, each contributes its sequence, in order |
| App.AllValidRegistersInOrder | App.cs:51-58 | five valid settings give five sequences named English, Russian, Ukrainian, Polish and Next, in that order, and no error |
| App.AllValidRegistered | App.cs:117-123 | with every setting naming a key, registration adds one sequence per setting, named after its action, in order, and reports no error |
| App.ShortcutHandler | App.cs:138-165 | the four language names select en-US, ru-Ru, uk-UA and pl-PL, "Next" selects the next layout, and every other name does nothing |
| App.RegisteredNamesHaveActions | App.cs:51-58 | every sequence the configuration registers has an action when it fires, and differently named ones have different actions |
| Program.Recognise | Program.cs:41-63 | in upper case, "/?" and "/HELP" ask for help, "/INSTALL" and "/UNINSTALL" for the service commands, and nothing else is a command |
| Program.RecogniseIgnoresCase | Program.cs:41 | under culture-invariant casing of ASCII letters, arguments that differ only in letter case are recognised alike |
| Program.Effects | Program.cs:43-63 | help only writes; "/install" installs and then starts; "/uninstall" stops and then uninstalls; these fix the effects of each command exactly, and no effect belongs to two commands |
| Program.ParseArgs | Program.cs:36-69 | the result is true exactly when some argument is a command; then the first such argument is carried out, and nothing is done otherwise |
| Program.Perform | Program.cs:162-258 | install leaves the service installed without starting or stopping it, and is a no-op on an installed service; start, stop and uninstall are no-ops on a missing one; only an installed service runs |
| Program.PerformAll | Program.cs:162-258 | any sequence of service operations keeps "only an installed service runs" |
| Program.InstallLeavesServiceRunning | Program.cs:52-57 | "/install" leaves the service installed and running, whatever the starting state |
| Program.UninstallRemovesService | Program.cs:58-63 | "/uninstall" leaves no service, stopped, whatever the starting state |
| Program.CommandsAreIdempotent | Program.cs:162-258 | running any command a second time changes nothing further |
| Program.Dispatch | Program.cs:11-29 | the service runs exactly when the start is not interactive, whatever the arguments; an interactive one starts the tray application exactly when no argument is a command, and otherwise carries out the first command |

## Left out

- Windows API calls: `LoadLibrary`, `SetWindowsHookEx`, `UnhookWindowsHookEx` and `CallNextHookEx` are P/Invoke. Their results are parameters, and the `Win32Exception` becomes a failed `Attempt`.
- Static constructors and finalizers of the two singletons: each calls `Hook` or `UnHook` when the runtime decides. Their ordering and any exception they throw are not modelled.
- Threads and message pumping: `Application.Run` and the hook thread are not modelled. Each event is processed to completion before the next.
- HookLifecycle.Hook: `Debug.Assert` is a precondition. Release builds drop the assertion, and a second hook would then be installed; that is not modelled.
- HookWiring.DeliverKeyboard: the `KeyEventArgs.KeyCode` normalisation is not modelled: the key of an event is the raw `vkCode`. `KeyCode` maps every `vkCode` that is not a defined `Keys` member to `Keys.None`, so in the program distinct undefined codes (some OEM codes, for instance) become one and the same key for both the repeat filter and the matcher; in the model they stay distinct. Pressing the undefined codes 0xE9 and then 0xEA, for instance, records one key press in the program and two in the model.
- App.AddShortCut: `Enum.TryParse<Keys>` is an abstract parser parameter. Which names it accepts, including numeric strings and comma-separated flags, is not modelled.
- Text.ToUpper: the model upper-cases culture-invariantly and only ASCII letters; non-ASCII characters are left unchanged. `string.ToUpper()` uses the current culture, and under a Turkish or Azeri culture the ASCII letter `i` becomes `İ` (U+0130), not `I`.
- Program.RecogniseIgnoresCase: holds only for the model's culture-invariant casing. Under a Turkish or Azeri current culture the program upper-cases "/install" and "/uninstall" to "/İNSTALL" and "/UNİNSTALL", which match no switch, so those lower-case spellings are not recognised and the tray application starts instead; the model recognises them.
- Text.ToUpperChar: only the ASCII letters `a`..`z` are upper-cased. `string.ToUpper()` also maps non-ASCII letters, some of them to ASCII letters: `ı` (U+0131) becomes `I` and `ſ` (U+017F) becomes `S` in every culture.
- Text.EqualsIgnoreCase: folds ASCII letters only. `StringComparison.OrdinalIgnoreCase` also equates non-ASCII pairs such as "é" and "É"; the program compares only against the ASCII literal "Off", so this does not change any answer the program gets.
- Program.Recognise: the model upper-cases ASCII letters only, so an argument that the program upper-cases to a switch through a non-ASCII letter, such as "/ınstall" with a dotless `ı`, is recognised by the program and not by the model; and under a Turkish or Azeri culture the program does not recognise "/install" and "/uninstall", which the model does.
- `InputSequence.Trigger` with no subscriber throws `NullReferenceException`. Every sequence the program registers has a subscriber, so the model returns the name.
- `ToString`, `GetHashCode`, `LogInputEvHistory` and all `Debug.WriteLine` output are diagnostics only.
- `Layouts.ActivateLayout` and `ActivateNextLayout`: Layouts.cs is not part of this model. `ShortcutHandler` returns which of them it would call.
- The settings store, the settings form, the tray icon and menu (Settings.cs, SettingsForm.cs, the rest of App.cs): the five shortcut settings are plain inputs.
- WinService.cs and WinServiceInstaller.cs are not part of this model. Running as a service is the `RunAsService` outcome.
- Program.Perform: the service operations are modelled by their effect on whether the service is installed and running. Installer failures and rollback, the 10-second status waits and their timeouts, and exceptions are not modelled. Uninstalling is taken to leave the service stopped.
- The help text, the program title and version (`GetProgramInfo`, `ProgramTitle`, `ProgramVersion`) and `FreeConsole` are console output only. Help is the `ShowHelp` effect.

=== FILE: app.dfy ===
/** Turning the five configured shortcut settings into press-and-release
    sequences, and the action each fired name stands for (App.cs,
    `InitKeyboardHook`, `AddShortCut`, `ShortcutHandler`). */
module App {
  import opened Wrappers
  import opened InputEvents
  import InputHook
  import Text

  /** `Enum.TryParse<Keys>(name, ignoreCase: true)`: a key name either names a
      key or does not. */
  type KeyParser = string -> Option<Key>

  /** The exception `AddShortCut` throws, with the (rewritten) offending name. */
  datatype ConfigError = IncorrectKeyName(name: string)

  /** The five shortcut settings, one per action. */
  datatype Settings = Settings(english: string, russian: string, ukrainian: string, polish: string, next: string)

  /** An empty setting, or "Off" in any letter case, disables its action. */
  function IsDisabled(shortcut: string): (r: bool)
    ensures r <==> || shortcut == ""
                   || (&& |shortcut| == 3 && shortcut[0] in "oO"
                       && shortcut[1] in "fF" && shortcut[2] in "fF")
  {
    shortcut == "" || Text.EqualsIgnoreCase(shortcut, "Off")
  }

  /** The `Keys` member names for the two Alt keys are `LMenu` and `RMenu`;
      "LAlt" and "RAlt", in any letter case, are accepted for them. */
  function KeyName(shortcut: string): (r: string)
    ensures Text.ToUpper(shortcut) == "LALT" ==> r == "LMenu"
    ensures Text.ToUpper(shortcut) == "RALT" ==> r == "RMenu"
    ensures Text.ToUpper(shortcut) !in {"LALT", "RALT"} ==> r == shortcut
  {
    if Text.ToUpper(shortcut) == "LALT" then "LMenu"
    else if Text.ToUpper(shortcut) == "RALT" then "RMenu"
    else shortcut
  }

  /** `AddShortCut`: nothing for a disabled setting; exactly one new sequence,
      named after the action, for a recognised key name; an error and no
      change for an unrecognised one. */
  function AddShortCut(h: InputHook.Recogniser, shortcut: string, action: string, parse: KeyParser)
    : (r: Result<InputHook.Recogniser, ConfigError>)
    ensures IsDisabled(shortcut) ==> r == Ok(h)
    ensures !IsDisabled(shortcut) && parse(KeyName(shortcut)).None?
            ==> r == Err(IncorrectKeyName(KeyName(shortcut)))
    ensures !IsDisabled(shortcut) && parse(KeyName(shortcut)).Some?
            ==> var k := parse(KeyName(shortcut)).value;
                && r.Ok? && r.value.history == h.history
                && r.value.sequences == h.sequences + [InputSequence(action, [KeyDownEvent(k), KeyUpEvent(k)])]
  {
    if IsDisabled(shortcut) then Ok(h)
    else
      var name := KeyName(shortcut);
      match parse(name)
      case Some(k) => Ok(InputHook.AddSequence(h, PressRelease(action, k)))
      case None => Err(IncorrectKeyName(name))
  }

  /** The settings paired with their action names, in registration order. */
  function Entries(s: Settings): seq<(string, string)>
  {
    [(s.english, "English"), (s.russian, "Russian"), (s.ukrainian, "Ukrainian"), (s.polish, "Polish"), (s.next, "Next")]
  }

  /** A setting that makes `AddShortCut` throw. */
  predicate Rejected(shortcut: string, parse: KeyParser)
  {
    !IsDisabled(shortcut) && parse(KeyName(shortcut)).None?
  }

  /** The sequences a list of settings contributes when none is rejected. */
  function Planned(entries: seq<(string, string)>, parse: KeyParser): seq<InputSequence>
  {
    if |entries| == 0 then []
    else
      var (shortcut, action) := entries[0];
      var here := if IsDisabled(shortcut) || parse(KeyName(shortcut)).None? then []
                  else [PressRelease(action, parse(KeyName(shortcut)).value)];
      here + Planned(entries[1..], parse)
  }

  /** The position of the first rejected setting, or the length of the list
      when none is rejected. */
  function FirstRejected(entries: seq<(string, string)>, parse: KeyParser): (k: nat)
    ensures k <= |entries|
    ensures k < |entries| ==> Rejected(entries[k].0, parse)
    ensures forall i :: 0 <= i < k ==> !Rejected(entries[i].0, parse)
  {
    if |entries| == 0 then 0
    else if Rejected(entries[0].0, parse) then 0
    else 1 + FirstRejected(entries[1..], parse)
  }

  /** The state `InitKeyboardHook` leaves behind, and the exception that
      stopped it, if any. The hook field is assigned before the first
      registration, so it holds whatever was registered before the error. */
  datatype InitOutcome = InitOutcome(hook: InputHook.Recogniser, error: Option<ConfigError>)

  /** `r` is what registering `entries` in order from `h` must give: exactly
      the sequences of the settings before the first rejected one are added,
      and the error, if any, names the rejected key. */
  ghost predicate RegisteredUpToError(h: InputHook.Recogniser, entries: seq<(string, string)>, parse: KeyParser, r: InitOutcome)
  {
    var k := FirstRejected(entries, parse);
    && r.hook.history == h.history
    && r.hook.sequences == h.sequences + Planned(entries[..k], parse)
    && (r.error.Some? <==> k < |entries|)
    && (r.error.Some? ==> r.error.value == IncorrectKeyName(KeyName(entries[k].0)))
  }

  /** Registering a list of settings in order, stopping at the first error. */
  function RegisterAll(h: InputHook.Recogniser, entries: seq<(string, string)>, parse: KeyParser): (r: InitOutcome)
    ensures RegisteredUpToError(h, entries, parse, r)
    decreases |entries|
  {
    if |entries| == 0 then
      assert entries[..0] == [];
      InitOutcome(h, None)
    else
      var first := AddShortCut(h, entries[0].0, entries[0].1, parse);
      if first.Err? then
        assert entries[..0] == [];
        InitOutcome(h, Some(first.error))
      else
        var rest := RegisterAll(first.value, entries[1..], parse);
        RegisterAllStep(h, entries, parse, first.value, rest);
        rest
  }

  /** The inductive step of `RegisterAll` after an accepted first setting. */
  lemma RegisterAllStep(h: InputHook.Recogniser, entries: seq<(string, string)>, parse: KeyParser, h': InputHook.Recogniser, rest: InitOutcome)
    requires |entries| > 0 && AddShortCut(h, entries[0].0, entries[0].1, parse) == Ok(h')
    requires RegisteredUpToError(h', entries[1..], parse, rest)
    ensures RegisteredUpToError(h, entries, parse, rest)
  {
    var k' := FirstRejected(entries[1..], parse);
    assert FirstRejected(entries, parse) == k' + 1;
    assert entries[..k' + 1][1..] == entries[1..][..k'];
    assert h'.sequences == h.sequences + Planned(entries[..1], parse) by {
      assert entries[..1][1..] == [];
    }
  }

  /** `InitKeyboardHook`: a fresh `InputHook` and the five shortcuts
      registered in the order English, Russian, Ukrainian, Polish, Next,
      stopping at the first invalid one. */
  function InitKeyboardHook(s: Settings, parse: KeyParser): (r: InitOutcome)
    ensures RegisteredUpToError(InputHook.NewRecogniser, Entries(s), parse, r)
    ensures r.hook.history == []
    ensures |r.hook.sequences| <= 5
    ensures forall i :: 0 <= i < |r.hook.sequences| ==> r.hook.sequences[i].name in ActionNames
    ensures r.error.None? <==> forall i :: 0 <= i < 5 ==> !Rejected(Entries(s)[i].0, parse)
  {
    var r := RegisterAll(InputHook.NewRecogniser, Entries(s), parse);
    InitFacts(s, parse, r);
    r
  }

  /** The consequences of `RegisterAll`'s contract for the five settings:
      at most one sequence per action, each named after an action, and no
      error exactly when no setting is rejected. */
  lemma InitFacts(s: Settings, parse: KeyParser, r: InitOutcome)
    requires r == RegisterAll(InputHook.NewRecogniser, Entries(s), parse)
    ensures r.hook.history == []
    ensures |r.hook.sequences| <= 5
    ensures forall i :: 0 <= i < |r.hook.sequences| ==> r.hook.sequences[i].name in ActionNames
    ensures r.error.None? <==> forall i :: 0 <= i < 5 ==> !Rejected(Entries(s)[i].0, parse)
  {
    var es := Entries(s);
    assert |es| == 5;
    assert forall i :: 0 <= i < |es| ==> es[i].1 == ActionNames[i];
    RegisteredFacts(es, parse, r);
  }

  /** Registering from a fresh hook: at most one sequence per setting, named
      after the settings' actions, and no error exactly when no setting is
      rejected. */
  lemma RegisteredFacts(entries: seq<(string, string)>, parse: KeyParser, r: InitOutcome)
    requires RegisteredUpToError(InputHook.NewRecogniser, entries, parse, r)
    requires forall i :: 0 <= i < |entries| ==> entries[i].1 in ActionNames
    ensures r.hook.history == []
    ensures |r.hook.sequences| <= |entries|
    ensures forall i :: 0 <= i < |r.hook.sequences| ==> r.hook.sequences[i].name in ActionNames
    ensures r.error.None? <==> forall i :: 0 <= i < |entries| ==> !Rejected(entries[i].0, parse)
  {
    var k := FirstRejected(entries, parse);
    var prefix := entries[..k];
    assert r.hook.sequences == Planned(prefix, parse);
    PlannedNames(prefix, parse);
    forall i | 0 <= i < |r.hook.sequences|
      ensures r.hook.sequences[i].name in ActionNames
    {
      var j :| 0 <= j < |prefix| && r.hook.sequences[i].name == prefix[j].1;
      assert prefix[j] == entries[j];
    }
  }

  /** The five action names, in registration order. */
  const ActionNames: seq<string> := ["English", "Russian", "Ukrainian", "Polish", "Next"]

  /** The planned sequences are at most one per entry and carry the entries'
      action names. */
  lemma {:induction false} PlannedNames(entries: seq<(string, string)>, parse: KeyParser)
    ensures |Planned(entries, parse)| <= |entries|
    ensures forall i :: 0 <= i < |Planned(entries, parse)| ==>
              exists j :: 0 <= j < |entries| && Planned(entries, parse)[i].name == entries[j].1
    decreases |entries|
  {
    if |entries| > 0 {
      PlannedNames(entries[1..], parse);
      var p := Planned(entries, parse);
      var tail := Planned(entries[1..], parse);
      forall i | 0 <= i < |p|
        ensures exists j :: 0 <= j < |entries| && p[i].name == entries[j].1
      {
        if i < |p| - |tail| {
          assert p[i].name == entries[0].1;
        } else {
          assert p[i] == tail[i - (|p| - |tail|)];
          var j :| 0 <= j < |entries[1..]| && tail[i - (|p| - |tail|)].name == entries[1..][j].1;
          assert entries[1..][j] == entries[j + 1];
        }
      }
    }
  }

  /** With no setting disabled or rejected, every setting contributes its
      sequence, in order. */
  lemma {:induction false} PlannedAllValid(entries: seq<(string, string)>, parse: KeyParser)
    requires forall i :: 0 <= i < |entries| ==> !IsDisabled(entries[i].0) && parse(KeyName(entries[i].0)).Some?
    ensures |Planned(entries, parse)| == |entries|
    ensures forall i :: 0 <= i < |entries| ==> Planned(entries, parse)[i].name == entries[i].1
    decreases |entries|
  {
    if |entries| > 0 {
      PlannedAllValid(entries[1..], parse);
    }
  }

  /** Every shortcut setting valid: one sequence per action, in registration
      order, and no error. */
  lemma AllValidRegistersInOrder(s: Settings, parse: KeyParser)
    requires forall i :: 0 <= i < 5 ==> !IsDisabled(Entries(s)[i].0) && parse(KeyName(Entries(s)[i].0)).Some?
    ensures InitKeyboardHook(s, parse).error == None
    ensures |InitKeyboardHook(s, parse).hook.sequences| == 5
    ensures forall i :: 0 <= i < 5 ==> InitKeyboardHook(s, parse).hook.sequences[i].name == ActionNames[i]
  {
    var es := Entries(s);
    assert |es| == 5;
    assert forall i :: 0 <= i < 5 ==> es[i].1 == ActionNames[i];
    AllValidRegistered(es, parse, InitKeyboardHook(s, parse));
  }

  /** Registering valid settings from a fresh hook: one sequence per setting,
      named after its action, in order, and no error. */
  lemma AllValidRegistered(entries: seq<(string, string)>, parse: KeyParser, r: InitOutcome)
    requires RegisteredUpToError(InputHook.NewRecogniser, entries, parse, r)
    requires forall i :: 0 <= i < |entries| ==> !IsDisabled(entries[i].0) && parse(KeyName(entries[i].0)).Some?
    ensures r.error == None
    ensures |r.hook.sequences| == |entries|
    ensures forall i :: 0 <= i < |entries| ==> r.hook.sequences[i].name == entries[i].1
  {
    PlannedAllValid(entries, parse);
    assert FirstRejected(entries, parse) == |entries|;
    assert entries[..|entries|] == entries;
  }

  /** What a fired name makes the program do to the keyboard layout. */
  datatype LayoutAction = ActivateLayout(culture: string) | ActivateNextLayout | NoAction

  /** `ShortcutHandler`. */
  function ShortcutHandler(name: string): (r: LayoutAction)
    ensures r == ActivateNextLayout <==> name == "Next"
    ensures r.ActivateLayout? <==> name in {"English", "Russian", "Ukrainian", "Polish"}
    ensures r == NoAction <==> name !in ActionNames
    ensures name == "English" ==> r.culture == "en-US"
    ensures name == "Russian" ==> r.culture == "ru-Ru"
    ensures name == "Ukrainian" ==> r.culture == "uk-UA"
    ensures name == "Polish" ==> r.culture == "pl-PL"
  {
    match name
    case "English" => ActivateLayout("en-US")
    case "Russian" => ActivateLayout("ru-Ru")
    case "Ukrainian" => ActivateLayout("uk-UA")
    case "Polish" => ActivateLayout("pl-PL")
    case "Next" => ActivateNextLayout
    case _ => NoAction
  }

  /** Whatever `InitKeyboardHook` registers, firing it does something, and two
      registered sequences with different names do different things. */
  lemma RegisteredNamesHaveActions(s: Settings, parse: KeyParser, i: nat, j: nat)
    requires i < |InitKeyboardHook(s, parse).hook.sequences| && j < |InitKeyboardHook(s, parse).hook.sequences|
    ensures var seqs := InitKeyboardHook(s, parse).hook.sequences;
            && ShortcutHandler(seqs[i].name) != NoAction
            && (seqs[i].name != seqs[j].name ==> ShortcutHandler(seqs[i].name) != ShortcutHandler(seqs[j].name))
  {
  }
}

=== FILE: hook_lifecycle.dfy ===
/** The install/uninstall state machine shared by the keyboard and the mouse
    hook singletons (GlobalKeyboardHook.cs and GlobalMouseHook.cs, `Hook` and
    `UnHook`), and the call each hook procedure makes to the next hook. */
module HookLifecycle {

  /** `installed` stands for the static callback delegate being non-null;
      `handle` is the `hookHandle` the operating system returned (0 = none). */
  datatype HookState = HookState(installed: bool, handle: int)

  /** The state before the singleton's static constructor runs. */
  const Unhooked: HookState := HookState(false, 0)

  /** The state after an attempt; `ok` is false when the source throws a
      `Win32Exception`, and `state` is what the fields hold afterwards. */
  datatype Attempt = Attempt(state: HookState, ok: bool)

  /** `Hook`: asserts that no hook is installed, records the callback, then
      asks the operating system for a hook; `osHandle` is what
      `SetWindowsHookEx` returned. The callback stays recorded even when the
      call failed. */
  function Hook(s: HookState, osHandle: int): (r: Attempt)
    requires !s.installed
    ensures r.state.installed
    ensures r.state.handle == osHandle
    ensures r.ok <==> osHandle != 0
  {
    Attempt(HookState(true, osHandle), osHandle != 0)
  }

  /** `UnHook`: nothing to do when no hook is installed; otherwise the hook is
      released when `UnhookWindowsHookEx` succeeds (`osOk`), and stays
      recorded when it fails. The handle field is never cleared. */
  function UnHook(s: HookState, osOk: bool): (r: Attempt)
    ensures !s.installed ==> r == Attempt(s, true)
    ensures s.installed ==> (r.ok <==> osOk)
    ensures r.state.installed <==> s.installed && !osOk
    ensures r.state.handle == s.handle
  {
    if !s.installed then Attempt(s, true)
    else if osOk then Attempt(s.(installed := false), true)
    else Attempt(s, false)
  }

  /** A successful unhook brings a successfully installed hook back to a state
      in which `Hook` may run again, and a second `UnHook` then does nothing. */
  lemma HookUnHookRoundTrip(s: HookState, osHandle: int, osOk: bool, osOk2: bool)
    requires !s.installed && osHandle != 0 && osOk
    ensures var hooked := Hook(s, osHandle);
            var unhooked := UnHook(hooked.state, osOk);
            && hooked.ok && unhooked.ok && !unhooked.state.installed
            && UnHook(unhooked.state, osOk2) == unhooked
  {
  }

  /** After a failed `Hook` the callback stays recorded, so the assertion of a
      second `Hook` would fail until an `UnHook` succeeds. */
  lemma FailedHookStaysMarked(s: HookState, osOk: bool)
    requires !s.installed
    ensures var failed := Hook(s, 0);
            && !failed.ok && failed.state.installed
            && (UnHook(failed.state, osOk).state.installed <==> !osOk)
  {
  }

  /** The `CallNextHookEx` call a hook procedure makes: the singleton's handle
      and the notification's code, message and data, unchanged. */
  datatype NextHookCall<L> = NextHookCall(handle: int, code: int, wParam: int, lParam: L)
}

=== FILE: hook_wiring.dfy ===
/** How an `InputHook` is connected to the two global hooks (InputHook.cs,
    constructor): it subscribes to KeyDown and KeyUp of the keyboard hook and
    to MouseDown, MouseUp and MouseWheel of the mouse hook, never setting
    `Handled`. The functions here follow one raw notification from the
    operating system to the recogniser and back. */
module HookWiring {
  import opened Wrappers
  import opened InputEvents
  import InputHook
  import KeyboardHook
  import MouseHook

  /** The keyboard events `InputHook` subscribes to. */
  const KeyboardSubscriptions := KeyboardHook.Subscribers(true, true)

  /** The mouse events `InputHook` subscribes to: not double-clicks, not moves. */
  const MouseSubscriptions: set<MouseHook.MouseEventKind> := {MouseHook.Down, MouseHook.Up, MouseHook.Wheel}

  /** A notification's effect on the recogniser and the value returned to the
      operating system. */
  datatype Delivery = Delivery(step: InputHook.StepResult, result: int)

  /** One keyboard notification, end to end. */
  function DeliverKeyboard(h: InputHook.Recogniser, handle: int, code: int, wParam: int,
                           lParam: KeyboardHook.KbdLlHookStruct, next: int): (r: Delivery)
    // The handlers never mark an event handled, so nothing is ever suppressed.
    ensures r.result == next
    ensures code < 0 || !(KeyboardHook.IsKeyDownMessage(wParam) || KeyboardHook.IsKeyUpMessage(wParam))
            ==> r.step == InputHook.StepResult(h, None)
    ensures code >= 0 && KeyboardHook.IsKeyDownMessage(wParam)
            ==> r.step == InputHook.AddInputEvToHistory(h, KeyDownEvent(lParam.vkCode))
    ensures code >= 0 && KeyboardHook.IsKeyUpMessage(wParam)
            ==> r.step == InputHook.AddInputEvToHistory(h, KeyUpEvent(lParam.vkCode))
  {
    var out := KeyboardHook.KeyboardHookProc(handle, code, wParam, lParam, KeyboardSubscriptions, false, next);
    var step := match out.raised
      case None => InputHook.StepResult(h, None)
      case Some(KeyDownNotice(k)) => InputHook.OnKeyDown(h, k)
      case Some(KeyUpNotice(k)) => InputHook.OnKeyUp(h, k);
    Delivery(step, out.result)
  }

  /** One mouse notification, end to end. */
  function DeliverMouse(h: InputHook.Recogniser, handle: int, code: int, wParam: int,
                        lParam: MouseHook.MsLlHookStruct, next: int): (r: Delivery)
    ensures r.result == next
    ensures r.step.hook.sequences == h.sequences
    ensures code < 0 ==> r.step == InputHook.StepResult(h, None)
    ensures code >= 0 && wParam in {MouseHook.WM_LBUTTONDOWN, MouseHook.WM_NCLBUTTONDOWN}
            ==> r.step.hook.history == InputHook.Push(h.history, MouseDownEvent(Left))
    ensures code >= 0 && wParam in {MouseHook.WM_MOUSEWHEEL, MouseHook.WM_MOUSEHWHEEL}
            ==> r.step.hook.history == InputHook.Push(h.history, MouseWheelEvent(MouseHook.HighWord(lParam.mouseData)))
  {
    var out := MouseHook.MouseHookProc(handle, code, wParam, lParam, MouseSubscriptions, next);
    var step := match out.raised
      case None => InputHook.StepResult(h, None)
      case Some(n) =>
        match n.kind
        case Down => InputHook.OnMouseDown(h, n.button)
        case Up => InputHook.OnMouseUp(h, n.button)
        case Wheel => InputHook.OnMouseWheel(h, n.delta)
        case _ => InputHook.StepResult(h, None);
    Delivery(step, out.result)
  }

  /** Double-clicks and moves are raised by the mouse hook but have no
      subscriber in `InputHook`: they never reach the history or fire anything. */
  lemma {:induction false} MouseNoiseIsIgnored(h: InputHook.Recogniser, handle: int, code: int, wParam: int,
                                               lParam: MouseHook.MsLlHookStruct, next: int)
    requires MouseHook.Classify(wParam, lParam.mouseData).Some?
    requires MouseHook.Classify(wParam, lParam.mouseData).value.kind in {MouseHook.DblClick, MouseHook.Move}
    ensures DeliverMouse(h, handle, code, wParam, lParam, next).step == InputHook.StepResult(h, None)
  {
  }

  /** Every button press or release, and every wheel turn, enters the history:
      the mouse is never subject to the repeat filter. */
  lemma MouseButtonsAlwaysRecorded(h: InputHook.Recogniser, handle: int, code: int, wParam: int,
                                   lParam: MouseHook.MsLlHookStruct, next: int)
    requires code >= 0
    requires MouseHook.Classify(wParam, lParam.mouseData).Some?
    requires MouseHook.Classify(wParam, lParam.mouseData).value.kind in MouseSubscriptions
    ensures var c := MouseHook.Classify(wParam, lParam.mouseData).value;
            var e := InputEvent(if c.kind == MouseHook.Down then MouseDown
                                else if c.kind == MouseHook.Up then MouseUp else MouseWheel,
                                NoKey, c.button, c.delta);
            DeliverMouse(h, handle, code, wParam, lParam, next).step.hook.history == InputHook.Push(h.history, e)
  {
  }
}

=== FILE: input_events.dfy ===
/** Normalised keyboard and mouse events and the named trigger sequences built
    from them (InputHook.cs, `InputEventType`, `InputEvent`, `InputSequence`). */
module InputEvents {
  import opened Wrappers

  /** A value of the Windows Forms `Keys` enumeration, i.e. a virtual-key code. */
  type Key = int

  /** `Keys.None`, the value a mouse event's `Key` property keeps. */
  const NoKey: Key := 0

  datatype InputEventType = KeyDown | KeyUp | MouseDown | MouseUp | MouseWheel

  /** The `MouseButtons` values the mouse hook produces; `NoButton` is `MouseButtons.None`. */
  datatype MouseButton = NoButton | Left | Right | Middle

  /** One event as the source stores it: a flat record in which only the field
      that belongs to `eventType` is meaningful; the others keep their defaults. */
  datatype InputEvent = InputEvent(eventType: InputEventType, key: Key, button: MouseButton, delta: int)
  {
    predicate IsKeyEvent()
    {
      eventType == KeyDown || eventType == KeyUp
    }
  }

  // The events the five handlers of `InputHook` build: every field they do
  // not set keeps its default value.
  function KeyDownEvent(k: Key): InputEvent { InputEvent(KeyDown, k, NoButton, 0) }
  function KeyUpEvent(k: Key): InputEvent { InputEvent(KeyUp, k, NoButton, 0) }
  function MouseDownEvent(b: MouseButton): InputEvent { InputEvent(MouseDown, NoKey, b, 0) }
  function MouseUpEvent(b: MouseButton): InputEvent { InputEvent(MouseUp, NoKey, b, 0) }
  function MouseWheelEvent(d: int): InputEvent { InputEvent(MouseWheel, NoKey, NoButton, d) }

  /** The tagged-variant view of an event: its kind together with only the
      field that kind makes meaningful. */
  datatype Payload = KeyPayload(key: Key) | ButtonPayload(button: MouseButton) | WheelPayload(delta: int)

  function Relevant(e: InputEvent): (p: Payload)
    ensures e.IsKeyEvent() <==> p.KeyPayload?
    ensures p.KeyPayload? ==> p.key == e.key
    ensures p.ButtonPayload? ==> p.button == e.button
    ensures p.WheelPayload? <==> e.eventType == MouseWheel
    ensures p.WheelPayload? ==> p.delta == e.delta
  {
    match e.eventType
    case KeyDown | KeyUp => KeyPayload(e.key)
    case MouseDown | MouseUp => ButtonPayload(e.button)
    case MouseWheel => WheelPayload(e.delta)
  }

  /** `InputEvent.Equals`: the event types agree and so does the one field that
      the common type makes relevant, i.e. the kind and the payload agree. */
  function Equals(a: InputEvent, b: InputEvent): (r: bool)
    ensures r <==> a.eventType == b.eventType && Relevant(a) == Relevant(b)
  {
    && a.eventType == b.eventType
    && match b.eventType
       case KeyDown | KeyUp => a.key == b.key
       case MouseDown | MouseUp => a.button == b.button
       case MouseWheel => a.delta == b.delta
  }

  /** The comparison `InputHook.IsTriggered` makes between a history entry and a
      pattern entry: event type and key only, whatever the kind of event. On a
      key event that is `Equals`; between two events whose keys are both
      `Keys.None`, as on every mouse event, it is the event type alone. */
  function Agrees(h: InputEvent, p: InputEvent): (r: bool)
    ensures h.IsKeyEvent() ==> (r <==> Equals(h, p))
    ensures h.key == NoKey && p.key == NoKey ==> (r <==> h.eventType == p.eventType)
  {
    h.eventType == p.eventType && h.key == p.key
  }

  /** `Equals` is an equivalence relation, so the repeat test does not depend on
      which side of the comparison the new event stands. */
  lemma EqualsIsEquivalence(a: InputEvent, b: InputEvent, c: InputEvent)
    ensures Equals(a, a)
    ensures Equals(a, b) ==> Equals(b, a)
    ensures Equals(a, b) && Equals(b, c) ==> Equals(a, c)
  {
  }

  /** Fields irrelevant to an event's kind never affect `Equals`. */
  lemma EqualsIgnoresIrrelevantFields(a: InputEvent, b: InputEvent, k: Key, m: MouseButton, d: int)
    ensures a.IsKeyEvent() ==> (Equals(a.(button := m, delta := d), b) <==> Equals(a, b))
    ensures a.eventType in {MouseDown, MouseUp} ==> (Equals(a.(key := k, delta := d), b) <==> Equals(a, b))
    ensures a.eventType == MouseWheel ==> (Equals(a.(key := k, button := m), b) <==> Equals(a, b))
  {
  }

  /** Mouse events keep `Key` at `Keys.None`, so the matcher compares them by
      event type alone: a pattern `MouseDown(Left)` is satisfied by a right click. */
  lemma MousePatternsMatchOnTypeAlone(b1: MouseButton, b2: MouseButton, d1: int, d2: int)
    ensures Agrees(MouseDownEvent(b1), MouseDownEvent(b2))
    ensures Agrees(MouseUpEvent(b1), MouseUpEvent(b2))
    ensures Agrees(MouseWheelEvent(d1), MouseWheelEvent(d2))
    ensures b1 != b2 ==> !Equals(MouseDownEvent(b1), MouseDownEvent(b2))
    ensures d1 != d2 ==> !Equals(MouseWheelEvent(d1), MouseWheelEvent(d2))
  {
  }

  /** `InputSequence`: a name and the ordered events that trigger it. */
  datatype InputSequence = InputSequence(name: string, events: seq<InputEvent>)

  /** The constructor `new InputSequence(name)`: a named sequence with no events. */
  function NewSequence(name: string): (s: InputSequence)
    ensures s.name == name && Count(s) == 0
  {
    InputSequence(name, [])
  }

  /** The `Count` property. */
  function Count(s: InputSequence): nat
  {
    |s.events|
  }

  /** The indexer's getter; `None` stands for the `ArgumentOutOfRangeException`
      the underlying list throws for a bad index. */
  function Get(s: InputSequence, index: int): (r: Option<InputEvent>)
    ensures r.Some? <==> 0 <= index < Count(s)
    ensures r.Some? ==> r.value == s.events[index]
  {
    if 0 <= index < |s.events| then Some(s.events[index]) else None
  }

  /** The indexer's setter: replaces one event and nothing else; `None` for a
      bad index. */
  function Set(s: InputSequence, index: int, e: InputEvent): (r: Option<InputSequence>)
    ensures r.Some? <==> 0 <= index < Count(s)
    ensures r.Some? ==> r.value.name == s.name && Count(r.value) == Count(s)
    ensures r.Some? ==> Get(r.value, index) == Some(e)
    ensures r.Some? ==> forall i :: 0 <= i < Count(s) && i != index ==> Get(r.value, i) == Get(s, i)
  {
    if 0 <= index < |s.events| then Some(s.(events := s.events[index := e])) else None
  }

  /** `Add`: the new event becomes the last one and the earlier ones are kept. */
  function Add(s: InputSequence, e: InputEvent): (r: InputSequence)
    ensures r.name == s.name
    ensures Count(r) == Count(s) + 1
    ensures Get(r, Count(s)) == Some(e)
    ensures forall i :: 0 <= i < Count(s) ==> Get(r, i) == Get(s, i)
  {
    s.(events := s.events + [e])
  }

  /** A press-and-release sequence: the key pressed, then released. */
  function PressRelease(name: string, k: Key): (s: InputSequence)
    ensures s == Add(Add(NewSequence(name), KeyDownEvent(k)), KeyUpEvent(k))
  {
    InputSequence(name, [KeyDownEvent(k), KeyUpEvent(k)])
  }

  /** `Trigger`: raises the `Triggered` event with the sequence's own name. */
  function Trigger(s: InputSequence): string
  {
    s.name
  }
}

=== FILE: input_hook.dfy ===
/** The recogniser of InputHook.cs: a rolling history of at most ten accepted
    events, an auto-repeat filter, and a scan of the registered sequences, in
    registration order, for one whose events form a suffix of the history. */
module InputHook {
  import opened Wrappers
  import opened InputEvents

  /** `MAX_KEY_SEQUENCE_LEN`: the history keeps at most this many events. */
  const MaxKeySequenceLen: nat := 10

  /** The state of one `InputHook` object: the event history, oldest first, and
      the registered sequences in registration order. */
  datatype Recogniser = Recogniser(history: seq<InputEvent>, sequences: seq<InputSequence>)

  /** The state `new InputHook()` starts in. */
  const NewRecogniser: Recogniser := Recogniser([], [])

  /** The bound on the history that every operation keeps. */
  predicate Bounded(h: Recogniser)
  {
    |h.history| <= MaxKeySequenceLen
  }

  /** `AddSequence`: the sequence goes to the end of the list; the history and
      the earlier sequences are untouched. */
  function AddSequence(h: Recogniser, s: InputSequence): (r: Recogniser)
    ensures r.history == h.history
    ensures |r.sequences| == |h.sequences| + 1
    ensures r.sequences[..|h.sequences|] == h.sequences
    ensures r.sequences[|h.sequences|] == s
  {
    h.(sequences := h.sequences + [s])
  }

  // ---------------------------------------------------------------------------
  // Matching

  /** Two equally long event lists agree position by position on type and key. */
  predicate AgreeAll(a: seq<InputEvent>, b: seq<InputEvent>)
    requires |a| == |b|
  {
    forall k :: 0 <= k < |a| ==> Agrees(a[k], b[k])
  }

  /** The pattern is no longer than the history, and its events agree on type
      and key with the newest `|pattern|` history entries, in order. */
  predicate SuffixMatch(history: seq<InputEvent>, pattern: seq<InputEvent>)
  {
    |pattern| <= |history| && AgreeAll(history[|history| - |pattern|..], pattern)
  }

  /** `IsTriggered`: walks the pattern and the history backwards from their
      last elements together, failing as soon as the history runs out or an
      entry differs in type or key. */
  method IsTriggered(history: seq<InputEvent>, pattern: seq<InputEvent>) returns (r: bool)
    ensures r <==> SuffixMatch(history, pattern)
    ensures |history| < |pattern| ==> !r
  {
    var j := |history| - 1;
    var i := |pattern| - 1;
    while i >= 0
      invariant -1 <= i < |pattern|
      invariant j == |history| - |pattern| + i
      invariant |pattern| - 1 - i <= |history|
      invariant forall k :: i < k < |pattern| ==> Agrees(history[|history| - |pattern| + k], pattern[k])
    {
      if j < 0 {
        return false;
      }
      if history[j].eventType != pattern[i].eventType || history[j].key != pattern[i].key {
        if |pattern| <= |history| {
          assert !Agrees(history[|history| - |pattern|..][i], pattern[i]);
        }
        return false;
      }
      j := j - 1;
      i := i - 1;
    }
    return true;
  }

  /** Sequence `i` is triggered by the history and no earlier one is. */
  ghost predicate IsFirstMatch(history: seq<InputEvent>, sequences: seq<InputSequence>, i: int)
  {
    && 0 <= i < |sequences|
    && SuffixMatch(history, sequences[i].events)
    && forall j :: 0 <= j < i ==> !SuffixMatch(history, sequences[j].events)
  }

  /** The scan of `ChkInputEvHistory`: the index of the first sequence, in
      registration order, that the history triggers. */
  function FirstTriggered(history: seq<InputEvent>, sequences: seq<InputSequence>): (r: Option<nat>)
    ensures r.Some? ==> IsFirstMatch(history, sequences, r.value)
    ensures r.None? ==> forall j :: 0 <= j < |sequences| ==> !SuffixMatch(history, sequences[j].events)
  {
    if |sequences| == 0 then None
    else if SuffixMatch(history, sequences[0].events) then Some(0)
    else match FirstTriggered(history, sequences[1..])
      case None => None
      case Some(i) => Some(i + 1)
  }

  /** Whichever sequence fires, no later one with the same events ever does:
      of two identically patterned sequences only the first registered fires. */
  lemma FirstRegisteredWins(history: seq<InputEvent>, sequences: seq<InputSequence>, i: nat, j: nat)
    requires i < j < |sequences|
    requires sequences[i].events == sequences[j].events
    ensures FirstTriggered(history, sequences) != Some(j)
  {
  }

  // ---------------------------------------------------------------------------
  // Repeat filter

  /** The position of the newest key event in the history, if there is one. */
  function NewestKeyIndex(history: seq<InputEvent>): (r: Option<nat>)
    ensures r.Some? ==> r.value < |history| && history[r.value].IsKeyEvent()
    ensures r.Some? ==> forall j :: r.value < j < |history| ==> !history[j].IsKeyEvent()
    ensures r.None? ==> forall j :: 0 <= j < |history| ==> !history[j].IsKeyEvent()
  {
    if |history| == 0 then None
    else if history[|history| - 1].IsKeyEvent() then Some(|history| - 1)
    else NewestKeyIndex(history[..|history| - 1])
  }

  /** `IsRepeat`: a key event that `Equals` the newest key event of the
      history, mouse events in between notwithstanding. */
  function IsRepeat(history: seq<InputEvent>, e: InputEvent): (r: bool)
    ensures !e.IsKeyEvent() ==> !r
    ensures r <==> e.IsKeyEvent() && exists i :: 0 <= i < |history| && IsNewestKeyEvent(history, i) && Equals(history[i], e)
  {
    var n := NewestKeyIndex(history);
    NewestKeyUnique(history, n);
    e.IsKeyEvent() && n.Some? && Equals(history[n.value], e)
  }

  /** Entry `i` is a key event and every later entry is a mouse event. */
  ghost predicate IsNewestKeyEvent(history: seq<InputEvent>, i: int)
  {
    && 0 <= i < |history|
    && history[i].IsKeyEvent()
    && forall j :: i < j < |history| ==> !history[j].IsKeyEvent()
  }

  lemma NewestKeyUnique(history: seq<InputEvent>, n: Option<nat>)
    requires n == NewestKeyIndex(history)
    ensures forall i :: IsNewestKeyEvent(history, i) <==> n == Some(i)
  {
  }

  // ---------------------------------------------------------------------------
  // Accepting an event

  /** Appending to the history: the event becomes the newest entry and, once
      the history already holds ten entries, exactly the oldest one is dropped. */
  function Push(history: seq<InputEvent>, e: InputEvent): (r: seq<InputEvent>)
    ensures |r| == if |history| < MaxKeySequenceLen then |history| + 1 else |history|
    ensures r == (history + [e])[|history| + 1 - |r|..]
    ensures r[|r| - 1] == e
    ensures |history| <= MaxKeySequenceLen ==> |r| <= MaxKeySequenceLen
  {
    var appended := history + [e];
    if |appended| > MaxKeySequenceLen then appended[1..] else appended
  }

  /** What one incoming event produces: the new state and the name of the
      sequence that fired, if any. */
  datatype StepResult = StepResult(hook: Recogniser, fired: Option<string>)

  /** `AddInputEvToHistory` followed by `ChkInputEvHistory`: a repeat is
      dropped; any other event is pushed and the first triggered sequence fires. */
  function AddInputEvToHistory(h: Recogniser, e: InputEvent): (r: StepResult)
    ensures r.hook.sequences == h.sequences
    ensures IsRepeat(h.history, e) ==> r == StepResult(h, None)
    ensures !IsRepeat(h.history, e) ==> r.hook.history == Push(h.history, e)
    ensures r.fired.Some? ==> exists i :: IsFirstMatch(r.hook.history, h.sequences, i) && r.fired.value == h.sequences[i].name
    ensures !IsRepeat(h.history, e) && (exists i :: 0 <= i < |h.sequences| && SuffixMatch(r.hook.history, h.sequences[i].events)) ==> r.fired.Some?
    ensures Bounded(h) ==> Bounded(r.hook)
  {
    if IsRepeat(h.history, e) then StepResult(h, None)
    else
      var h' := h.(history := Push(h.history, e));
      match FirstTriggered(h'.history, h'.sequences)
      case None => StepResult(h', None)
      case Some(i) => StepResult(h', Some(Trigger(h'.sequences[i])))
  }

  // The five event handlers `InputHook` subscribes to the two global hooks.

  function OnKeyDown(h: Recogniser, k: Key): (r: StepResult)
    ensures r.hook.history == if IsRepeat(h.history, KeyDownEvent(k)) then h.history else Push(h.history, KeyDownEvent(k))
  {
    AddInputEvToHistory(h, KeyDownEvent(k))
  }

  function OnKeyUp(h: Recogniser, k: Key): (r: StepResult)
    ensures r.hook.history == if IsRepeat(h.history, KeyUpEvent(k)) then h.history else Push(h.history, KeyUpEvent(k))
  {
    AddInputEvToHistory(h, KeyUpEvent(k))
  }

  function OnMouseDown(h: Recogniser, b: MouseButton): (r: StepResult)
    ensures r.hook.history == Push(h.history, MouseDownEvent(b))
  {
    AddInputEvToHistory(h, MouseDownEvent(b))
  }

  function OnMouseUp(h: Recogniser, b: MouseButton): (r: StepResult)
    ensures r.hook.history == Push(h.history, MouseUpEvent(b))
  {
    AddInputEvToHistory(h, MouseUpEvent(b))
  }

  function OnMouseWheel(h: Recogniser, d: int): (r: StepResult)
    ensures r.hook.history == Push(h.history, MouseWheelEvent(d))
  {
    AddInputEvToHistory(h, MouseWheelEvent(d))
  }

  // ---------------------------------------------------------------------------
  // Streams of events

  /** The state after a stream of events and the names fired, in order. */
  datatype RunResult = RunResult(hook: Recogniser, fired: seq<string>)

  function Run(h: Recogniser, events: seq<InputEvent>): RunResult
    decreases |events|
  {
    if |events| == 0 then RunResult(h, [])
    else
      var step := AddInputEvToHistory(h, events[0]);
      var rest := Run(step.hook, events[1..]);
      var now := if step.fired.Some? then [step.fired.value] else [];
      RunResult(rest.hook, now + rest.fired)
  }

  /** A stream never changes the registered sequences, keeps the history
      bounded, and fires at most one name per event. */
  lemma {:induction false} RunInvariant(h: Recogniser, events: seq<InputEvent>)
    requires Bounded(h)
    ensures Run(h, events).hook.sequences == h.sequences
    ensures Bounded(Run(h, events).hook)
    ensures |Run(h, events).fired| <= |events|
    decreases |events|
  {
    if |events| > 0 {
      RunInvariant(AddInputEvToHistory(h, events[0]).hook, events[1..]);
    }
  }

  function Repeat(e: InputEvent, n: nat): (r: seq<InputEvent>)
    ensures |r| == n
    ensures forall i :: 0 <= i < n ==> r[i] == e
  {
    if n == 0 then [] else [e] + Repeat(e, n - 1)
  }

  /** Once a key event is a repeat, feeding it again changes nothing. */
  lemma {:induction false} RepeatsAreInert(h: Recogniser, e: InputEvent, n: nat)
    requires IsRepeat(h.history, e)
    ensures Run(h, Repeat(e, n)) == RunResult(h, [])
    decreases n
  {
    if n > 0 {
      assert Repeat(e, n)[0] == e && Repeat(e, n)[1..] == Repeat(e, n - 1);
      RepeatsAreInert(h, e, n - 1);
    }
  }

  /** Holding a key: the same key event N times in a row has exactly the effect
      of feeding it once, so it adds at most one history entry. */
  lemma RepeatedKeyCountsOnce(h: Recogniser, e: InputEvent, n: nat)
    requires e.IsKeyEvent() && n >= 1
    ensures Run(h, Repeat(e, n)) == Run(h, [e])
    ensures |Run(h, Repeat(e, n)).hook.history| <= |h.history| + 1
  {
    var step := AddInputEvToHistory(h, e);
    RepeatBurstRun(h, e, n, step);
    RepeatBurstRun(h, e, 1, step);
    assert Repeat(e, 1) == [e];
    KeyRepeatsItself(h, e);
  }

  /** A burst of N >= 1 copies of a key event ends in the state of the first
      copy and fires what the first copy fires. */
  lemma RepeatBurstRun(h: Recogniser, e: InputEvent, n: nat, step: StepResult)
    requires e.IsKeyEvent() && n >= 1
    requires step == AddInputEvToHistory(h, e)
    ensures Run(h, Repeat(e, n)).hook == step.hook
    ensures Run(h, Repeat(e, n)).fired == if step.fired.Some? then [step.fired.value] else []
  {
    KeyRepeatsItself(h, e);
    RepeatsAreInert(step.hook, e, n - 1);
    assert Repeat(e, n)[0] == e && Repeat(e, n)[1..] == Repeat(e, n - 1);
    RunUnfold(h, Repeat(e, n), step);
    var now: seq<string> := if step.fired.Some? then [step.fired.value] else [];
    assert now + [] == now;
  }

  /** Right after a key event is processed, the same event is a repeat,
      whether or not it was accepted. */
  lemma KeyRepeatsItself(h: Recogniser, e: InputEvent)
    requires e.IsKeyEvent()
    ensures IsRepeat(AddInputEvToHistory(h, e).hook.history, e)
    ensures |AddInputEvToHistory(h, e).hook.history| <= |h.history| + 1
  {
    if !IsRepeat(h.history, e) {
      var hist := AddInputEvToHistory(h, e).hook.history;
      assert IsNewestKeyEvent(hist, |hist| - 1);
      EqualsIsEquivalence(e, e, e);
    }
  }

  // ---------------------------------------------------------------------------
  // The bounded window

  /** The newest `n` elements of `s` (all of `s` if it is shorter). */
  function LastN(s: seq<InputEvent>, n: nat): (r: seq<InputEvent>)
    ensures |r| == if |s| < n then |s| else n
  {
    if |s| <= n then s else s[|s| - n..]
  }

  /** Cutting to the newest ten before or after appending more gives the same. */
  lemma LastNOfAppend(a: seq<InputEvent>, b: seq<InputEvent>)
    requires |a| <= MaxKeySequenceLen + 1
    ensures LastN(LastN(a, MaxKeySequenceLen) + b, MaxKeySequenceLen) == LastN(a + b, MaxKeySequenceLen)
  {
  }

  /** When no event of a stream is a repeat, the history is the newest ten
      events of the old history followed by the stream. */
  lemma {:induction false} AcceptedStreamHistory(h: Recogniser, events: seq<InputEvent>)
    requires Bounded(h)
    requires NoRepeats(h.history, events)
    ensures Run(h, events).hook.history == LastN(h.history + events, MaxKeySequenceLen)
    decreases |events|
  {
    if |events| == 0 {
      assert h.history + events == h.history;
    } else {
      var appended, rest := h.history + [events[0]], events[1..];
      var next := AcceptedStreamStep(h, events);
      AcceptedStreamHistory(next, rest);
      SplitFirst(h.history, events);
      LastNOfAppend(appended, rest);
    }
  }

  /** Appending a non-empty list is appending its first element, then the rest. */
  lemma SplitFirst(a: seq<InputEvent>, b: seq<InputEvent>)
    requires |b| > 0
    ensures a + b == (a + [b[0]]) + b[1..]
  {
  }

  /** The first event of a stream without repeats is pushed, and the rest of
      the stream, still without repeats, continues from there. */
  lemma AcceptedStreamStep(h: Recogniser, events: seq<InputEvent>) returns (next: Recogniser)
    requires Bounded(h) && |events| > 0 && NoRepeats(h.history, events)
    ensures Bounded(next)
    ensures NoRepeats(next.history, events[1..])
    ensures next.history == LastN(h.history + [events[0]], MaxKeySequenceLen)
    ensures Run(h, events).hook == Run(next, events[1..]).hook
  {
    var step := AddInputEvToHistory(h, events[0]);
    RunUnfold(h, events, step);
    next := step.hook;
  }

  /** No event of the stream is a repeat at the moment it arrives. */
  ghost predicate NoRepeats(history: seq<InputEvent>, events: seq<InputEvent>)
    decreases |events|
  {
    |events| == 0 || (!IsRepeat(history, events[0]) && NoRepeats(Push(history, events[0]), events[1..]))
  }

  // ---------------------------------------------------------------------------
  // Worked scenarios

  /** One accepted event on a history short of the bound. */
  lemma AcceptStep(h: Recogniser, e: InputEvent, fired: Option<string>)
    requires !IsRepeat(h.history, e)
    requires |h.history| < MaxKeySequenceLen
    requires fired == (match FirstTriggered(h.history + [e], h.sequences)
                       case None => None
                       case Some(i) => Some(h.sequences[i].name))
    ensures AddInputEvToHistory(h, e) == StepResult(h.(history := h.history + [e]), fired)
  {
  }

  /** `Run` on a non-empty stream, one step unfolded. */
  lemma RunUnfold(h: Recogniser, events: seq<InputEvent>, step: StepResult)
    requires |events| > 0 && step == AddInputEvToHistory(h, events[0])
    ensures Run(h, events).hook == Run(step.hook, events[1..]).hook
    ensures Run(h, events).fired == (if step.fired.Some? then [step.fired.value] else []) + Run(step.hook, events[1..]).fired
  {
  }

  /** An event differing from a key event at the end of the history is never
      a repeat. */
  lemma NotRepeatAfterOtherKey(history: seq<InputEvent>, e: InputEvent)
    requires |history| > 0 && history[|history| - 1].IsKeyEvent()
    requires !Equals(history[|history| - 1], e)
    ensures !IsRepeat(history, e)
  {
    NewestKeyUnique(history, NewestKeyIndex(history));
  }

  /** What decides each step of "press `k`, auto-repeat, release `k`" with a
      press-and-release shortcut on `k`: the repeat is recognised, the press
      and the release are not repeats, and only the release completes the
      shortcut. */
  lemma HeldKeyFacts(seqs: seq<InputSequence>, name: string, k: Key)
    requires seqs == [PressRelease(name, k)]
    ensures var kd, ku := KeyDownEvent(k), KeyUpEvent(k);
            && !IsRepeat([], kd) && FirstTriggered([kd], seqs) == None
            && IsRepeat([kd], kd)
            && !IsRepeat([kd], ku) && FirstTriggered([kd, ku], seqs) == Some(0)
  {
    var kd, ku := KeyDownEvent(k), KeyUpEvent(k);
    assert !SuffixMatch([kd], seqs[0].events);
    assert IsNewestKeyEvent([kd], 0);
    assert SuffixMatch([kd, ku], seqs[0].events);
    NotRepeatAfterOtherKey([kd], ku);
  }

  /** The state and the fired name after each of the three events. */
  lemma HeldKeySteps(seqs: seq<InputSequence>, name: string, k: Key)
    requires seqs == [PressRelease(name, k)]
    ensures var kd, ku := KeyDownEvent(k), KeyUpEvent(k);
            && AddInputEvToHistory(Recogniser([], seqs), kd) == StepResult(Recogniser([kd], seqs), None)
            && AddInputEvToHistory(Recogniser([kd], seqs), kd) == StepResult(Recogniser([kd], seqs), None)
            && AddInputEvToHistory(Recogniser([kd], seqs), ku) == StepResult(Recogniser([kd, ku], seqs), Some(name))
  {
    var kd, ku := KeyDownEvent(k), KeyUpEvent(k);
    HeldKeyFacts(seqs, name, k);
    assert [] + [kd] == [kd] && [kd] + [ku] == [kd, ku];
    AcceptStep(Recogniser([], seqs), kd, None);
    AcceptStep(Recogniser([kd], seqs), ku, Some(name));
  }

  /** The release alone, and then the repeat followed by the release, from
      the state after the press. */
  lemma HeldKeyTail1(seqs: seq<InputSequence>, name: string, k: Key)
    requires seqs == [PressRelease(name, k)]
    ensures var kd, ku := KeyDownEvent(k), KeyUpEvent(k);
            && Run(Recogniser([kd], seqs), [ku]).hook == Recogniser([kd, ku], seqs)
            && Run(Recogniser([kd], seqs), [ku]).fired == [name]
  {
    var kd, ku := KeyDownEvent(k), KeyUpEvent(k);
    HeldKeySteps(seqs, name, k);
    assert [ku][1..] == [];
    RunUnfold(Recogniser([kd], seqs), [ku], StepResult(Recogniser([kd, ku], seqs), Some(name)));
    assert [name] + [] == [name];
  }

  lemma HeldKeyTail2(seqs: seq<InputSequence>, name: string, k: Key)
    requires seqs == [PressRelease(name, k)]
    ensures var kd, ku := KeyDownEvent(k), KeyUpEvent(k);
            && Run(Recogniser([kd], seqs), [kd, ku]).hook == Recogniser([kd, ku], seqs)
            && Run(Recogniser([kd], seqs), [kd, ku]).fired == [name]
  {
    var kd, ku := KeyDownEvent(k), KeyUpEvent(k);
    HeldKeySteps(seqs, name, k);
    HeldKeyTail1(seqs, name, k);
    assert [kd, ku][1..] == [ku];
    RunUnfold(Recogniser([kd], seqs), [kd, ku], StepResult(Recogniser([kd], seqs), None));
    assert [] + [name] == [name];
  }

  /** Press a key, let it auto-repeat once, release it: its press-and-release
      shortcut fires exactly once and the history holds the press and the
      release only. */
  lemma HeldKeyFiresOnce(name: string, k: Key)
    ensures var h := AddSequence(NewRecogniser, PressRelease(name, k));
            Run(h, [KeyDownEvent(k), KeyDownEvent(k), KeyUpEvent(k)])
            == RunResult(Recogniser([KeyDownEvent(k), KeyUpEvent(k)], h.sequences), [name])
  {
    var kd, ku := KeyDownEvent(k), KeyUpEvent(k);
    var seqs := [PressRelease(name, k)];
    assert AddSequence(NewRecogniser, PressRelease(name, k)) == Recogniser([], seqs);
    HeldKeySteps(seqs, name, k);
    HeldKeyTail2(seqs, name, k);
    assert [kd, kd, ku][1..] == [kd, ku];
    RunUnfold(Recogniser([], seqs), [kd, kd, ku], StepResult(Recogniser([kd], seqs), None));
    assert [] + [name] == [name];
  }

  /** What decides each step of "press and release `x`, then press and release
      `y`" with the shortcuts `a` on `x` and `b` on `y`: no event is a repeat,
      and the first shortcut fires on the second event, the second on the
      last. First the two events on `x`, then the two on `y`. */
  lemma TwoShortcutsFirstFacts(seqs: seq<InputSequence>, a: string, b: string, x: Key, y: Key)
    requires x != y && seqs == [PressRelease(a, x), PressRelease(b, y)]
    ensures var e1, e2 := KeyDownEvent(x), KeyUpEvent(x);
            && !IsRepeat([], e1) && FirstTriggered([e1], seqs) == None
            && !IsRepeat([e1], e2) && FirstTriggered([e1, e2], seqs) == Some(0)
  {
    var e1, e2 := KeyDownEvent(x), KeyUpEvent(x);
    assert !SuffixMatch([e1], seqs[0].events) && !SuffixMatch([e1], seqs[1].events);
    NotRepeatAfterOtherKey([e1], e2);
    assert SuffixMatch([e1, e2], seqs[0].events);
  }

  lemma TwoShortcutsLastFacts(seqs: seq<InputSequence>, a: string, b: string, x: Key, y: Key)
    requires x != y && seqs == [PressRelease(a, x), PressRelease(b, y)]
    ensures var e1, e2, e3, e4 := KeyDownEvent(x), KeyUpEvent(x), KeyDownEvent(y), KeyUpEvent(y);
            && !IsRepeat([e1, e2], e3) && FirstTriggered([e1, e2, e3], seqs) == None
            && !IsRepeat([e1, e2, e3], e4) && FirstTriggered([e1, e2, e3, e4], seqs) == Some(1)
  {
    var e1, e2, e3, e4 := KeyDownEvent(x), KeyUpEvent(x), KeyDownEvent(y), KeyUpEvent(y);
    NotRepeatAfterOtherKey([e1, e2], e3);
    assert [e1, e2, e3][1..] == [e2, e3];
    assert !Agrees(e2, seqs[0].events[0]) && !Agrees(e3, seqs[1].events[1]);
    assert !SuffixMatch([e1, e2, e3], seqs[0].events) && !SuffixMatch([e1, e2, e3], seqs[1].events);
    NotRepeatAfterOtherKey([e1, e2, e3], e4);
    assert [e1, e2, e3, e4][2..] == [e3, e4];
    assert !Agrees(e3, seqs[0].events[0]);
    assert !SuffixMatch([e1, e2, e3, e4], seqs[0].events);
    assert SuffixMatch([e1, e2, e3, e4], seqs[1].events);
  }

  /** The state and the fired name after each of the four events. */
  lemma TwoShortcutsSteps(seqs: seq<InputSequence>, a: string, b: string, x: Key, y: Key)
    requires x != y && seqs == [PressRelease(a, x), PressRelease(b, y)]
    ensures var e1, e2, e3, e4 := KeyDownEvent(x), KeyUpEvent(x), KeyDownEvent(y), KeyUpEvent(y);
            && AddInputEvToHistory(Recogniser([], seqs), e1) == StepResult(Recogniser([e1], seqs), None)
            && AddInputEvToHistory(Recogniser([e1], seqs), e2) == StepResult(Recogniser([e1, e2], seqs), Some(a))
            && AddInputEvToHistory(Recogniser([e1, e2], seqs), e3) == StepResult(Recogniser([e1, e2, e3], seqs), None)
            && AddInputEvToHistory(Recogniser([e1, e2, e3], seqs), e4) == StepResult(Recogniser([e1, e2, e3, e4], seqs), Some(b))
  {
    TwoShortcutsFirstSteps(seqs, a, b, x, y);
    TwoShortcutsLastSteps(seqs, a, b, x, y);
  }

  lemma TwoShortcutsFirstSteps(seqs: seq<InputSequence>, a: string, b: string, x: Key, y: Key)
    requires x != y && seqs == [PressRelease(a, x), PressRelease(b, y)]
    ensures var e1, e2 := KeyDownEvent(x), KeyUpEvent(x);
            && AddInputEvToHistory(Recogniser([], seqs), e1) == StepResult(Recogniser([e1], seqs), None)
            && AddInputEvToHistory(Recogniser([e1], seqs), e2) == StepResult(Recogniser([e1, e2], seqs), Some(a))
  {
    var e1, e2 := KeyDownEvent(x), KeyUpEvent(x);
    TwoShortcutsFirstFacts(seqs, a, b, x, y);
    assert [] + [e1] == [e1] && [e1] + [e2] == [e1, e2];
    AcceptStep(Recogniser([], seqs), e1, None);
    AcceptStep(Recogniser([e1], seqs), e2, Some(a));
  }

  lemma TwoShortcutsLastSteps(seqs: seq<InputSequence>, a: string, b: string, x: Key, y: Key)
    requires x != y && seqs == [PressRelease(a, x), PressRelease(b, y)]
    ensures var e1, e2, e3, e4 := KeyDownEvent(x), KeyUpEvent(x), KeyDownEvent(y), KeyUpEvent(y);
            && AddInputEvToHistory(Recogniser([e1, e2], seqs), e3) == StepResult(Recogniser([e1, e2, e3], seqs), None)
            && AddInputEvToHistory(Recogniser([e1, e2, e3], seqs), e4) == StepResult(Recogniser([e1, e2, e3, e4], seqs), Some(b))
  {
    var e1, e2, e3, e4 := KeyDownEvent(x), KeyUpEvent(x), KeyDownEvent(y), KeyUpEvent(y);
    TwoShortcutsLastFacts(seqs, a, b, x, y);
    assert [e1, e2] + [e3] == [e1, e2, e3] && [e1, e2, e3] + [e4] == [e1, e2, e3, e4];
    AcceptStep(Recogniser([e1, e2], seqs), e3, None);
    AcceptStep(Recogniser([e1, e2, e3], seqs), e4, Some(b));
  }

  /** `Run` over the remaining events, from the state reached by the events
      before them: first the last event alone, then the last two, and so on. */
  lemma TwoShortcutsTail1(seqs: seq<InputSequence>, a: string, b: string, x: Key, y: Key)
    requires x != y && seqs == [PressRelease(a, x), PressRelease(b, y)]
    ensures var e1, e2, e3, e4 := KeyDownEvent(x), KeyUpEvent(x), KeyDownEvent(y), KeyUpEvent(y);
            Run(Recogniser([e1, e2, e3], seqs), [e4]).fired == [b]
  {
    var e1, e2, e3, e4 := KeyDownEvent(x), KeyUpEvent(x), KeyDownEvent(y), KeyUpEvent(y);
    TwoShortcutsSteps(seqs, a, b, x, y);
    RunUnfold(Recogniser([e1, e2, e3], seqs), [e4], StepResult(Recogniser([e1, e2, e3, e4], seqs), Some(b)));
    assert [e4][1..] == [];
  }

  lemma TwoShortcutsTail2(seqs: seq<InputSequence>, a: string, b: string, x: Key, y: Key)
    requires x != y && seqs == [PressRelease(a, x), PressRelease(b, y)]
    ensures var e1, e2, e3, e4 := KeyDownEvent(x), KeyUpEvent(x), KeyDownEvent(y), KeyUpEvent(y);
            Run(Recogniser([e1, e2], seqs), [e3, e4]).fired == [b]
  {
    var e1, e2, e3, e4 := KeyDownEvent(x), KeyUpEvent(x), KeyDownEvent(y), KeyUpEvent(y);
    TwoShortcutsSteps(seqs, a, b, x, y);
    TwoShortcutsTail1(seqs, a, b, x, y);
    assert [e3, e4][1..] == [e4];
    RunUnfold(Recogniser([e1, e2], seqs), [e3, e4], StepResult(Recogniser([e1, e2, e3], seqs), None));
  }

  lemma TwoShortcutsTail3(seqs: seq<InputSequence>, a: string, b: string, x: Key, y: Key)
    requires x != y && seqs == [PressRelease(a, x), PressRelease(b, y)]
    ensures var e1, e2, e3, e4 := KeyDownEvent(x), KeyUpEvent(x), KeyDownEvent(y), KeyUpEvent(y);
            Run(Recogniser([e1], seqs), [e2, e3, e4]).fired == [a, b]
  {
    var e1, e2, e3, e4 := KeyDownEvent(x), KeyUpEvent(x), KeyDownEvent(y), KeyUpEvent(y);
    TwoShortcutsSteps(seqs, a, b, x, y);
    TwoShortcutsTail2(seqs, a, b, x, y);
    assert [e2, e3, e4][1..] == [e3, e4];
    RunUnfold(Recogniser([e1], seqs), [e2, e3, e4], StepResult(Recogniser([e1, e2], seqs), Some(a)));
  }

  lemma TwoShortcutsRun(seqs: seq<InputSequence>, a: string, b: string, x: Key, y: Key)
    requires x != y && seqs == [PressRelease(a, x), PressRelease(b, y)]
    ensures var e1, e2, e3, e4 := KeyDownEvent(x), KeyUpEvent(x), KeyDownEvent(y), KeyUpEvent(y);
            Run(Recogniser([], seqs), [e1, e2, e3, e4]).fired == [a, b]
  {
    var e1, e2, e3, e4 := KeyDownEvent(x), KeyUpEvent(x), KeyDownEvent(y), KeyUpEvent(y);
    TwoShortcutsSteps(seqs, a, b, x, y);
    TwoShortcutsTail3(seqs, a, b, x, y);
    assert [e1, e2, e3, e4][1..] == [e2, e3, e4];
    RunUnfold(Recogniser([], seqs), [e1, e2, e3, e4], StepResult(Recogniser([e1], seqs), None));
  }

  /** Two press-and-release shortcuts on different keys, fed one after the
      other, fire once each, in order, and neither fires on the other's key. */
  lemma TwoShortcutsFireInOrder(a: string, b: string, x: Key, y: Key)
    requires x != y
    ensures var h := AddSequence(AddSequence(NewRecogniser, PressRelease(a, x)), PressRelease(b, y));
            Run(h, [KeyDownEvent(x), KeyUpEvent(x), KeyDownEvent(y), KeyUpEvent(y)]).fired == [a, b]
  {
    var seqs := [PressRelease(a, x), PressRelease(b, y)];
    assert AddSequence(AddSequence(NewRecogniser, PressRelease(a, x)), PressRelease(b, y)) == Recogniser([], seqs);
    TwoShortcutsRun(seqs, a, b, x, y);
  }
}

=== FILE: keyboard_hook.dfy ===
/** The low-level keyboard hook procedure of GlobalKeyboardHook.cs: which
    notifications become `KeyDown`/`KeyUp` events, and what the procedure
    returns to the operating system. */
module KeyboardHook {
  import opened Wrappers
  import opened InputEvents
  import opened HookLifecycle

  // Keyboard message identifiers (WinAPI.cs).
  const WM_KEYDOWN: int := 0x100
  const WM_KEYUP: int := 0x101
  const WM_SYSKEYDOWN: int := 0x104
  const WM_SYSKEYUP: int := 0x105

  /** `KBDLLHOOKSTRUCT`: the data passed with each notification. */
  datatype KbdLlHookStruct = KbdLlHookStruct(vkCode: int, scanCode: int, flags: int, time: int)

  /** An event the hook raises to its subscribers. */
  datatype KeyNotice = KeyDownNotice(key: Key) | KeyUpNotice(key: Key)

  /** Which of the two events have a subscriber (a non-null delegate). */
  datatype Subscribers = Subscribers(keyDown: bool, keyUp: bool)

  predicate IsKeyDownMessage(wParam: int) { wParam == WM_KEYDOWN || wParam == WM_SYSKEYDOWN }
  predicate IsKeyUpMessage(wParam: int) { wParam == WM_KEYUP || wParam == WM_SYSKEYUP }

  /** What one call of the hook procedure does: the event it raised, the call
      to the next hook it made (if any), and the value it returned. */
  datatype KeyboardOutcome = KeyboardOutcome(
    raised: Option<KeyNotice>,
    forwarded: Option<NextHookCall<KbdLlHookStruct>>,
    result: int)

  /** `KeyboardHookProc`. `handled` is what the subscriber leaves in
      `KeyEventArgs.Handled`; `next` is what `CallNextHookEx` returns. */
  function KeyboardHookProc(handle: int, code: int, wParam: int, lParam: KbdLlHookStruct,
                            subs: Subscribers, handled: bool, next: int): (r: KeyboardOutcome)
    // A negative code is passed straight on.
    ensures code < 0 ==> r.raised == None
    // Plain and system key-down messages both raise KeyDown, given a subscriber.
    ensures code >= 0 && IsKeyDownMessage(wParam) && subs.keyDown ==> r.raised == Some(KeyDownNotice(lParam.vkCode))
    ensures code >= 0 && IsKeyUpMessage(wParam) && subs.keyUp ==> r.raised == Some(KeyUpNotice(lParam.vkCode))
    // Nothing else raises an event.
    ensures r.raised.Some? && r.raised.value.KeyDownNotice? ==> IsKeyDownMessage(wParam) && subs.keyDown
    ensures r.raised.Some? && r.raised.value.KeyUpNotice? ==> IsKeyUpMessage(wParam) && subs.keyUp
    // The notification is suppressed exactly when a raised event was handled.
    ensures r.forwarded.None? <==> r.raised.Some? && handled
    ensures r.forwarded.None? ==> r.result == 1
    ensures r.forwarded.Some? ==> r.forwarded.value == NextHookCall(handle, code, wParam, lParam) && r.result == next
  {
    var raised :=
      if code < 0 then None
      else if IsKeyDownMessage(wParam) && subs.keyDown then Some(KeyDownNotice(lParam.vkCode))
      else if IsKeyUpMessage(wParam) && subs.keyUp then Some(KeyUpNotice(lParam.vkCode))
      else None;
    if raised.Some? && handled then KeyboardOutcome(raised, None, 1)
    else KeyboardOutcome(raised, Some(NextHookCall(handle, code, wParam, lParam)), next)
  }

  /** The system variant of a message behaves as the plain one: same event,
      same return value. */
  lemma SystemMessagesFold(handle: int, code: int, lParam: KbdLlHookStruct, subs: Subscribers, handled: bool, next: int)
    ensures KeyboardHookProc(handle, code, WM_SYSKEYDOWN, lParam, subs, handled, next).raised
         == KeyboardHookProc(handle, code, WM_KEYDOWN, lParam, subs, handled, next).raised
    ensures KeyboardHookProc(handle, code, WM_SYSKEYDOWN, lParam, subs, handled, next).result
         == KeyboardHookProc(handle, code, WM_KEYDOWN, lParam, subs, handled, next).result
    ensures KeyboardHookProc(handle, code, WM_SYSKEYUP, lParam, subs, handled, next).raised
         == KeyboardHookProc(handle, code, WM_KEYUP, lParam, subs, handled, next).raised
    ensures KeyboardHookProc(handle, code, WM_SYSKEYUP, lParam, subs, handled, next).result
         == KeyboardHookProc(handle, code, WM_KEYUP, lParam, subs, handled, next).result
  {
  }

  /** Unless a subscriber marks the event handled, every notification reaches
      the next hook exactly as received and its answer is returned. */
  lemma PassThrough(handle: int, code: int, wParam: int, lParam: KbdLlHookStruct, subs: Subscribers, next: int)
    ensures var r := KeyboardHookProc(handle, code, wParam, lParam, subs, false, next);
            r.forwarded == Some(NextHookCall(handle, code, wParam, lParam)) && r.result == next
  {
  }
}

=== FILE: mouse_hook.dfy ===
/** The low-level mouse hook procedure of GlobalMouseHook.cs: how a message
    identifier becomes an event kind, a button and a wheel delta, and the
    unconditional call to the next hook. */
module MouseHook {
  import opened Wrappers
  import opened InputEvents
  import opened HookLifecycle

  // Mouse message identifiers (WinAPI.cs).
  const WM_MOUSEMOVE: int := 0x0200
  const WM_LBUTTONDOWN: int := 0x0201
  const WM_LBUTTONUP: int := 0x0202
  const WM_LBUTTONDBLCLK: int := 0x0203
  const WM_RBUTTONDOWN: int := 0x0204
  const WM_RBUTTONUP: int := 0x0205
  const WM_RBUTTONDBLCLK: int := 0x0206
  const WM_MBUTTONDOWN: int := 0x0207
  const WM_MBUTTONUP: int := 0x0208
  const WM_MBUTTONDBLCLK: int := 0x0209
  const WM_MOUSEWHEEL: int := 0x020A
  const WM_MOUSEHWHEEL: int := 0x020E
  const WM_NCMOUSEMOVE: int := 0x00A0
  const WM_NCLBUTTONDOWN: int := 0x00A1
  const WM_NCLBUTTONUP: int := 0x00A2
  const WM_NCLBUTTONDBLCLK: int := 0x00A3
  const WM_NCRBUTTONDOWN: int := 0x00A4
  const WM_NCRBUTTONUP: int := 0x00A5
  const WM_NCRBUTTONDBLCLK: int := 0x00A6
  const WM_NCMBUTTONDOWN: int := 0x00A7
  const WM_NCMBUTTONUP: int := 0x00A8
  const WM_NCMBUTTONDBLCLK: int := 0x00A9

  /** A 32-bit signed integer, the type of `MSLLHOOKSTRUCT.mouseData`. */
  type Int32 = x: int | -0x8000_0000 <= x < 0x8000_0000

  /** `MSLLHOOKSTRUCT`: cursor position, wheel data and the rest. */
  datatype MsLlHookStruct = MsLlHookStruct(x: int, y: int, mouseData: Int32, flags: int, time: int)

  /** The five events the mouse hook can raise. */
  datatype MouseEventKind = Down | Up | DblClick | Move | Wheel

  /** An event as raised: its kind and the `MouseEventArgs` fields. */
  datatype MouseNotice = MouseNotice(kind: MouseEventKind, button: MouseButton, delta: int, x: int, y: int)

  /** What a message identifier selects, before any subscriber is consulted. */
  datatype Classified = Classified(kind: MouseEventKind, button: MouseButton, delta: int)

  /** `mouseData >> 16` on a signed 32-bit value: the high word, sign-extended. */
  function HighWord(mouseData: Int32): (d: int)
    ensures -0x8000 <= d < 0x8000
    ensures d * 0x1_0000 <= mouseData < d * 0x1_0000 + 0x1_0000
  {
    mouseData / 0x1_0000
  }

  /** The `switch` of `MouseHookProc`. */
  function Classify(wParam: int, mouseData: Int32): (r: Option<Classified>)
    // Client and non-client variants of a button message give the same result.
    ensures r.Some? && r.value.kind == Down <==> wParam in {WM_LBUTTONDOWN, WM_NCLBUTTONDOWN, WM_RBUTTONDOWN, WM_NCRBUTTONDOWN, WM_MBUTTONDOWN, WM_NCMBUTTONDOWN}
    ensures r.Some? && r.value.kind == Up <==> wParam in {WM_LBUTTONUP, WM_NCLBUTTONUP, WM_RBUTTONUP, WM_NCRBUTTONUP, WM_MBUTTONUP, WM_NCMBUTTONUP}
    ensures r.Some? && r.value.kind == DblClick <==> wParam in {WM_LBUTTONDBLCLK, WM_NCLBUTTONDBLCLK, WM_RBUTTONDBLCLK, WM_NCRBUTTONDBLCLK, WM_MBUTTONDBLCLK, WM_NCMBUTTONDBLCLK}
    ensures r.Some? && r.value.kind == Move <==> wParam in {WM_MOUSEMOVE, WM_NCMOUSEMOVE}
    ensures r.Some? && r.value.kind == Wheel <==> wParam in {WM_MOUSEWHEEL, WM_MOUSEHWHEEL}
    // The button follows the L/R/M letter of the message name.
    ensures r.Some? && r.value.button == Left <==> wParam in {WM_LBUTTONDOWN, WM_NCLBUTTONDOWN, WM_LBUTTONUP, WM_NCLBUTTONUP, WM_LBUTTONDBLCLK, WM_NCLBUTTONDBLCLK}
    ensures r.Some? && r.value.button == Right <==> wParam in {WM_RBUTTONDOWN, WM_NCRBUTTONDOWN, WM_RBUTTONUP, WM_NCRBUTTONUP, WM_RBUTTONDBLCLK, WM_NCRBUTTONDBLCLK}
    ensures r.Some? && r.value.button == Middle <==> wParam in {WM_MBUTTONDOWN, WM_NCMBUTTONDOWN, WM_MBUTTONUP, WM_NCMBUTTONUP, WM_MBUTTONDBLCLK, WM_NCMBUTTONDBLCLK}
    // Only the wheel carries a delta, the high word of `mouseData`.
    ensures r.Some? && r.value.kind == Wheel ==> r.value.delta == HighWord(mouseData)
    ensures r.Some? && r.value.kind != Wheel ==> r.value.delta == 0
  {
    if wParam == WM_LBUTTONDOWN || wParam == WM_NCLBUTTONDOWN then Some(Classified(Down, Left, 0))
    else if wParam == WM_RBUTTONDOWN || wParam == WM_NCRBUTTONDOWN then Some(Classified(Down, Right, 0))
    else if wParam == WM_MBUTTONDOWN || wParam == WM_NCMBUTTONDOWN then Some(Classified(Down, Middle, 0))
    else if wParam == WM_LBUTTONUP || wParam == WM_NCLBUTTONUP then Some(Classified(Up, Left, 0))
    else if wParam == WM_RBUTTONUP || wParam == WM_NCRBUTTONUP then Some(Classified(Up, Right, 0))
    else if wParam == WM_MBUTTONUP || wParam == WM_NCMBUTTONUP then Some(Classified(Up, Middle, 0))
    else if wParam == WM_LBUTTONDBLCLK || wParam == WM_NCLBUTTONDBLCLK then Some(Classified(DblClick, Left, 0))
    else if wParam == WM_RBUTTONDBLCLK || wParam == WM_NCRBUTTONDBLCLK then Some(Classified(DblClick, Right, 0))
    else if wParam == WM_MBUTTONDBLCLK || wParam == WM_NCMBUTTONDBLCLK then Some(Classified(DblClick, Middle, 0))
    else if wParam == WM_MOUSEMOVE || wParam == WM_NCMOUSEMOVE then Some(Classified(Move, NoButton, 0))
    else if wParam == WM_MOUSEHWHEEL || wParam == WM_MOUSEWHEEL then Some(Classified(Wheel, NoButton, HighWord(mouseData)))
    else None
  }

  /** What one call of the hook procedure does. There is no suppression path:
      the next hook is always called and its answer returned. */
  datatype MouseOutcome = MouseOutcome(raised: Option<MouseNotice>, forwarded: NextHookCall<MsLlHookStruct>, result: int)

  /** `MouseHookProc`; `subscribed` holds the events that have a subscriber
      and `next` is what `CallNextHookEx` returns. */
  function MouseHookProc(handle: int, code: int, wParam: int, lParam: MsLlHookStruct,
                         subscribed: set<MouseEventKind>, next: int): (r: MouseOutcome)
    ensures r.forwarded == NextHookCall(handle, code, wParam, lParam) && r.result == next
    ensures code < 0 ==> r.raised == None
    ensures r.raised.Some? <==> code >= 0 && Classify(wParam, lParam.mouseData).Some?
                                && Classify(wParam, lParam.mouseData).value.kind in subscribed
    ensures r.raised.Some? ==> var c := Classify(wParam, lParam.mouseData).value;
                               r.raised.value == MouseNotice(c.kind, c.button, c.delta, lParam.x, lParam.y)
  {
    var raised :=
      if code < 0 then None
      else match Classify(wParam, lParam.mouseData)
        case None => None
        case Some(c) =>
          if c.kind in subscribed then Some(MouseNotice(c.kind, c.button, c.delta, lParam.x, lParam.y)) else None;
    MouseOutcome(raised, NextHookCall(handle, code, wParam, lParam), next)
  }

  /** A wheel message raises the signed high word of `mouseData` as its delta:
      whenever the low word is zero, as it is for wheel notches, the delta is
      exactly the high word with its sign, so one notch away from the user
      (+120) and one towards the user (-120) come out as +120 and -120. */
  lemma WheelDeltaSign(handle: int, lParam: MsLlHookStruct, next: int)
    requires lParam.mouseData % 0x1_0000 == 0
    ensures var r := MouseHookProc(handle, 0, WM_MOUSEWHEEL, lParam, {Wheel}, next);
            r.raised.Some? && r.raised.value.delta * 0x1_0000 == lParam.mouseData
  {
  }
}

=== FILE: program.dfy ===
/** The command line and the start-up dispatch (Program.cs, `Main`,
    `ParseArgs`), with the Windows service operations as effects on an
    abstract service state. */
module Program {
  import opened Wrappers
  import Text

  /** The commands the command line understands. */
  datatype Command = Help | Install | Uninstall

  /** One argument, compared in upper case: "/?" and "/help" ask for help,
      "/install" and "/uninstall" for the service commands; anything else is
      not a command. */
  function Recognise(arg: string): (r: Option<Command>)
    ensures r == Some(Help) <==> Text.ToUpper(arg) == "/?" || Text.ToUpper(arg) == "/HELP"
    ensures r == Some(Install) <==> Text.ToUpper(arg) == "/INSTALL"
    ensures r == Some(Uninstall) <==> Text.ToUpper(arg) == "/UNINSTALL"
  {
    match Text.ToUpper(arg)
    case "/?" => Some(Help)
    case "/HELP" => Some(Help)
    case "/INSTALL" => Some(Install)
    case "/UNINSTALL" => Some(Uninstall)
    case _ => None
  }

  /** Recognition ignores the letter case of the argument. */
  lemma RecogniseIgnoresCase(a: string, b: string)
    requires Text.EqualsIgnoreCase(a, b)
    ensures Recognise(a) == Recognise(b)
  {
  }

  /** What running a command does to the outside world: the help text is
      written to the console; the four service operations act on the
      installed Windows service. */
  datatype Effect = ShowHelp | InstallService | StartService | StopService | UninstallService

  /** The effects of one command, in the order they are performed: help only
      writes, "/install" installs then starts, "/uninstall" stops then
      uninstalls; no effect belongs to two commands. */
  function Effects(c: Command): (r: seq<Effect>)
    ensures |r| == (if c == Help then 1 else 2)
    ensures ShowHelp in r <==> c == Help
    ensures InstallService in r <==> c == Install
    ensures UninstallService in r <==> c == Uninstall
    ensures StartService in r <==> c == Install
    ensures StopService in r <==> c == Uninstall
    ensures StartService in r ==> InstallService in r && r[|r| - 1] == StartService
    ensures StopService in r ==> UninstallService in r && r[0] == StopService
  {
    match c
    case Help => [ShowHelp]
    case Install => [InstallService, StartService]
    case Uninstall => [StopService, UninstallService]
  }

  /** `ParseArgs`: the arguments are scanned in order and the first one that
      is a command is carried out; the rest are ignored. `found` is the
      method's return value. */
  method ParseArgs(args: seq<string>) returns (found: bool, effects: seq<Effect>)
    ensures found <==> exists i :: 0 <= i < |args| && Recognise(args[i]).Some?
    ensures !found ==> effects == []
    ensures found ==> exists i :: && 0 <= i < |args| && Recognise(args[i]).Some?
                                  && (forall j :: 0 <= j < i ==> Recognise(args[j]).None?)
                                  && effects == Effects(Recognise(args[i]).value)
  {
    found := false;
    effects := [];
    var n := 0;
    while n < |args|
      invariant 0 <= n <= |args|
      invariant !found && effects == []
      invariant forall j :: 0 <= j < n ==> Recognise(args[j]).None?
    {
      var c := Recognise(args[n]);
      if c.Some? {
        found := true;
        effects := Effects(c.value);
        return;
      }
      n := n + 1;
    }
  }

  /** The part of the machine the service operations see: whether the
      service is installed and whether it is running. */
  datatype ServiceState = ServiceState(installed: bool, running: bool)
  {
    /** Only an installed service can run. */
    predicate Valid()
    {
      running ==> installed
    }
  }

  /** One service operation, each a no-op when its precondition on the
      installed state does not hold (`InstallService` when already
      installed; the other three when not installed). Starting and stopping
      wait until the service reaches the requested status. */
  function Perform(st: ServiceState, e: Effect): (r: ServiceState)
    requires st.Valid()
    ensures r.Valid()
    ensures e == InstallService ==> r.installed && r.running == st.running && (st.installed ==> r == st)
    ensures e == StartService ==> r.installed == st.installed && r.running == st.installed
    ensures e == StopService ==> r.installed == st.installed && !r.running
    ensures e == UninstallService ==> !r.installed && !r.running
    ensures e == ShowHelp ==> r == st
  {
    match e
    case ShowHelp => st
    case InstallService => if st.installed then st else ServiceState(true, false)
    case StartService => if !st.installed then st else st.(running := true)
    case StopService => if !st.installed then st else st.(running := false)
    case UninstallService => if !st.installed then st else ServiceState(false, false)
  }

  /** A list of effects performed in order. */
  function PerformAll(st: ServiceState, effects: seq<Effect>): (r: ServiceState)
    requires st.Valid()
    ensures r.Valid()
    decreases |effects|
  {
    if |effects| == 0 then st else PerformAll(Perform(st, effects[0]), effects[1..])
  }

  /** "/install" leaves the service installed and running, whatever the
      starting state. */
  lemma InstallLeavesServiceRunning(st: ServiceState)
    requires st.Valid()
    ensures PerformAll(st, Effects(Install)) == ServiceState(true, true)
  {
  }

  /** "/uninstall" leaves no service behind, whatever the starting state. */
  lemma UninstallRemovesService(st: ServiceState)
    requires st.Valid()
    ensures PerformAll(st, Effects(Uninstall)) == ServiceState(false, false)
  {
  }

  /** Running a command a second time changes nothing further. */
  lemma CommandsAreIdempotent(st: ServiceState, c: Command)
    requires st.Valid()
    ensures PerformAll(PerformAll(st, Effects(c)), Effects(c)) == PerformAll(st, Effects(c))
  {
  }

  /** How the process goes on after `Main`. */
  datatype RunMode =
    | StartApp                       // the tray application
    | CommandOnly(effects: seq<Effect>) // a command was carried out; the process ends
    | RunAsService                   // started by the service control manager

  /** `Main`: a non-interactive start runs the Windows service and ignores
      the arguments; an interactive one carries out the first command among
      the arguments, or starts the application when there is none. */
  method Dispatch(interactive: bool, args: seq<string>) returns (mode: RunMode)
    ensures mode == RunAsService <==> !interactive
    ensures interactive ==> (mode == StartApp <==> forall i :: 0 <= i < |args| ==> Recognise(args[i]).None?)
    ensures interactive && mode.CommandOnly? ==>
              exists i :: && 0 <= i < |args| && Recognise(args[i]).Some?
                          && (forall j :: 0 <= j < i ==> Recognise(args[j]).None?)
                          && mode.effects == Effects(Recognise(args[i]).value)
  {
    if interactive {
      var found, effects := ParseArgs(args);
      if !found {
        mode := StartApp;
      } else {
        mode := CommandOnly(effects);
      }
    } else {
      mode := RunAsService;
    }
  }
}

=== FILE: text.dfy ===
/** The little string handling the program needs: upper-casing for
    case-insensitive comparisons of shortcut names and command-line switches. */
module Text {

  /** Upper-cases one ASCII letter and leaves every other character alone. */
  function ToUpperChar(c: char): (r: char)
    ensures 'a' <= c <= 'z' ==> 'A' <= r <= 'Z' && r as int == c as int - 32
    ensures !('a' <= c <= 'z') ==> r == c
  {
    if 'a' <= c <= 'z' then (c as int - 32) as char else c
  }

  /** `string.ToUpper()`, restricted to ASCII letters. */
  function ToUpper(s: string): (r: string)
    ensures |r| == |s|
    ensures forall i :: 0 <= i < |s| ==> r[i] == ToUpperChar(s[i])
  {
    seq(|s|, i requires 0 <= i < |s| => ToUpperChar(s[i]))
  }

  /** Case-insensitive equality with ASCII letter folding: the strings have
      the same length and agree character by character once each character is
      upper-cased. Against the ASCII literal "Off", the one comparison the
      program makes, this gives the answer of `StringComparison.OrdinalIgnoreCase`. */
  function EqualsIgnoreCase(a: string, b: string): (r: bool)
    ensures r <==> |a| == |b| && forall i :: 0 <= i < |a| ==> ToUpperChar(a[i]) == ToUpperChar(b[i])
  {
    ToUpper(a) == ToUpper(b)
  }
}

=== FILE: wrappers.dfy ===
/** Optional values and error-carrying results used throughout the model. */
module Wrappers {

  /** A value that may be absent (a null reference, a missing match). */
  datatype Option<+T> = None | Some(value: T)

  /** Either a value or the error the source would have thrown. */
  datatype Result<+T, +E> = Ok(value: T) | Err(error: E)
}
